=== FILE: README.md ===
# TIM3 asset loaders, in Dafny

This project models the core of a Rust program that decodes the TIM3 game-asset
containers. Three loaders make up that core:

- **The resource map** (`TIM3ResourceMap`, `src/resource.rs`).
  - `new` parses the index file. It checks the magic number `0x07040100`, then reads a
    u16 record count. Each record holds a 13-byte NUL-padded name and a u16 sub-record
    count. Each sub-record is a u32 name hash, which is discarded, and a u32 offset.
    The index maps the upper-cased name to the offsets; a later record with the same
    key replaces an earlier one.
  - `add_archive` looks an archive up under its upper-cased name. It then reads the
    record at each indexed offset: a 13-byte name and a u16 size, which the format
    says is followed by that many payload bytes. As written, the code reads none of
    them (see Findings), so it stores an empty payload under each record's trimmed
    name, with case kept. Records stored before a failure stay stored.
  - `get` looks a stored payload up by its exact name.
- **The palette decoder** (`TIM3Palette::new`, `src/graphics.rs`). It reads a RIFF
  palette: the magic `RIFF`, a size, `PAL data`, an inner size, version `0x0300`, a
  colour count, then four bytes per colour (red, green, blue, flags).
- **The bitmap decoder** (`TIM3Bitmap::new`, `src/graphics.rs`). It reads the magic
  `BMP:` and a body size. The format says the body follows; as written, the code
  reads none of it and decodes from an empty buffer (see Findings). The body holds a reserved u16, a frame count and a
  table of u32 frame offsets. Each offset is counted from the start of the 8-byte outer
  header. Each frame holds a u16 width, a u16 height, a reserved byte, a u32 pixel
  count and the pixels.

Files:

- `wrappers.dfy`: `Result`, `Option`, `Outcome`, and the single error kind `LoadingError`
  (`src/error.rs`).
- `bytes.dfy`: bytes, little- and big-endian values and their encoders, and the `At`
  slice predicate.
- `streams.dfy`: a cursor over an in-memory byte sequence.
  - Reads are exact: a short read fails with the message of Rust's `read_exact`.
  - `PayloadRead` gives the two readings of a size-prefixed payload. `WithCapacity`
    is the code as written. `DeclaredLength` is the corrected reading (see Findings).
- `names.dfy`: UTF-8 validity (Table 3-7 of the Unicode Standard), NUL trimming and
  ASCII upper-casing of name fields. Upper-casing is described independently by the 26
  letter pairs `a`/`A` to `z`/`Z`, as equality ignoring ASCII case.
- `resource.dfy` and `resource_proofs.dfy`: the resource map.
  - Its partner is an index encoder, an archive-record encoder and a reference fold
    (`InsertAll`) of map insertions.
  - The index parser is proved to be that fold over the records in file order, and
    so is the extraction over the records it can read.
- `graphics.dfy` and `graphics_proofs.dfy`: the two decoders.
  - Their partners are a palette writer and a bitmap writer.
  - The palette round trip is proved for the code as written.
  - The bitmap round trip is proved under the corrected declared-size reading of
    the body. As written, every bitmap is rejected (see Findings).
  - The bitmap proofs also show that frames follow the table order, not the order of
    the frames in the body.

Keys and names, including the names given to palettes and bitmaps, are kept as the
bytes of their UTF-8 encoding (`Names.Name`), so equality of names is equality of Rust
strings.

Notes where the code differs from a first reading of the format:

- **Palette inner size.** The palette's inner size sizes a buffer that has capacity but
  length zero, so nothing is consumed there. The version is therefore read at byte 20,
  right after the inner size, and the model does the same.
- **Frame offsets below 8.** For an offset below 8, `offset as u64 - 8` underflows. A
  debug build panics; a release build wraps, seeks far past the end and fails the next
  read. The model turns both into a `LoadingError`.

## Model

| member | source | states |
|---|---|---|
| Streams.ReadBytes | src/resource.rs:29-30 | an exact read succeeds iff the bytes are there (always for zero bytes), returns exactly that slice and advances the cursor by n; otherwise it fails with the short-read error |
| Streams.ReadLE | src/resource.rs:18 | a little-endian read succeeds iff n bytes remain, gives the value of that slice (below 256^n) and advances by n; otherwise it is a short read |
| Streams.ReadBE | src/graphics.rs:18 | the same for a big-endian read |
| Streams.ReadU8 | src/graphics.rs:52-55 | a byte read succeeds iff a byte remains, gives that byte and advances by one |
| Streams.ReadPayload | src/resource.rs:68-70 | under `with_capacity` nothing is read and the cursor stays put; under the declared length it is an exact read of `size` bytes |
| Streams.ReadLEAt | src/resource.rs:18 | reading an encoded little-endian value gives the value back |
| Streams.ReadBEAt | src/graphics.rs:18 | reading an encoded big-endian value gives the value back |
| Bytes.LittleEndianEqual | src/resource.rs:18-19 | two fields of one width have the same little-endian value iff they are the same bytes, so the magic test accepts exactly one byte pattern |
| Bytes.BigEndianEqual | src/graphics.rs:76-77 | the same for big-endian fields such as `BMP:` |
| Names.AsciiIsValidUtf8 | src/resource.rs:31 | every ASCII name field passes the UTF-8 check |
| Names.TrimNulSpec | src/resource.rs:32 | trimming keeps a prefix of the field, drops only NUL bytes, and leaves no NUL at the end |
| Names.UpperByteSpec | src/resource.rs:33 | an upper-cased byte is not a lower-case letter of the 26-letter alphabet and equals the byte ignoring case; two bytes upper-case alike iff they are equal ignoring case |
| Names.AsciiUpperSpec | src/resource.rs:33 | the upper-cased name has no lower-case ASCII letter and equals the name ignoring ASCII case |
| Names.AsciiUpperUnique | src/resource.rs:33 | those two properties determine the upper-cased name: any name that has them is it |
| Names.AsciiUpperMatches | src/resource.rs:33 | two names upper-case alike iff they are equal ignoring ASCII case |
| Names.AsciiUpperIdempotent | src/resource.rs:52 | upper-casing an already upper-cased name changes nothing |
| Resource.DecodeName | src/resource.rs:29-34 | a name field decodes iff the whole 13-byte field is valid UTF-8; it then has its trailing NULs dropped, and otherwise gives the UTF-8 error |
| Resource.ParseIndex | src/resource.rs:17-45 | a wrong magic fails with the magic error whatever follows; success needs the 6-byte header and gives an empty store and at most `count` keys |
| Resource.ReadRecords | src/resource.rs:28-43 | reading records only adds keys, and at most one per record |
| Resource.ReadRecord | src/resource.rs:29-41 | an index record reads iff its 15-byte header is there, its 13-byte name field is valid UTF-8 and its 8n bytes of sub-records follow. It then gives the upper-cased trimmed name and n offsets, and the cursor ends 15 + 8n further on. A name field that is there but not UTF-8 gives the UTF-8 error; a record cut off gives a short read |
| Resource.ReadRecordOffsets | src/resource.rs:36-41 | offset i of a record read is the second u32 of its sub-record i, 15 + 8i bytes into the record |
| Resource.ReadOffsets | src/resource.rs:36-41 | n sub-records read iff 8n bytes remain; this gives n offsets and advances by 8n, and a failure is a short read |
| Resource.ReadOffsetsValues | src/resource.rs:39-40 | offset i is the second u32 of sub-record i; the hash is skipped |
| Resource.ReadEntry | src/resource.rs:61-70 | an archive record reads iff its header fits, its name field is valid UTF-8 and, under the declared length, its payload fits. Its name is the trimmed field. Its payload is the declared slice, or empty as written. A failure is the UTF-8 error when the field is there but not valid UTF-8, and a short read otherwise |
| Resource.StoreRecords | src/resource.rs:60-73 | extraction never removes a stored name; as written, every payload it adds is empty |
| Resource.AddArchive | src/resource.rs:47-76 | the index is never changed and no stored name is lost. An archive name not in the index fails with the no-record error and changes nothing. As written, only empty payloads are added |
| Resource.Get | src/resource.rs:82-84 | `get` answers Some iff the exact name is stored, with the stored payload |
| ResourceProofs.InsertAllKeys | src/resource.rs:42 | a key is present after a sequence of inserts iff it was before or some insert carries it |
| ResourceProofs.InsertAllLastWins | src/resource.rs:42 | after a sequence of inserts a key holds the value of the last insert that carries it |
| ResourceProofs.InsertAllUntouched | src/resource.rs:72 | a key no insert carries keeps its presence and value |
| ResourceProofs.ReadOffsetsRoundTrip | src/resource.rs:36-41 | written sub-records read back as their offsets, in order, with the cursor after them |
| ResourceProofs.ReadRecordRoundTrip | src/resource.rs:29-42 | a written index record reads back as its upper-cased trimmed key and its offsets, with the cursor after it |
| ResourceProofs.ReadEncodedRecords | src/resource.rs:28-43 | any reader that reads single records back reads a run of written records as the reference fold of their (key, offsets) pairs |
| ResourceProofs.ReadRecordsRoundTrip | src/resource.rs:28-43 | the index loader's record loop is that fold over the written records |
| ResourceProofs.ParseIndexRoundTrip | src/resource.rs:17-45 | a written index file, with anything after it, parses to the index its records describe and an empty store |
| ResourceProofs.ParseIndexBadMagic | src/resource.rs:18-23 | any file whose first four bytes are not the magic fails with the magic error |
| ResourceProofs.ReadRecordsFailure | src/resource.rs:28-43 | whatever the reader, a record it cannot read before the count runs out ends the loop with that record's error |
| ResourceProofs.ReadEncodedRecordsFailure | src/resource.rs:28-43 | after a run of written records read back, the first record that cannot be read ends the loop with its error |
| ResourceProofs.ReadRecordsStopAt | src/resource.rs:28-43 | the same for the index loader's record loop |
| ResourceProofs.ParseIndexStopsAtRecord | src/resource.rs:17-45 | an index that declares more records than the written ones before an unreadable one fails with that record's error |
| ResourceProofs.ReadRecordOnRest | src/resource.rs:29-41 | in terms of the bytes that remain, a record read fails with the UTF-8 error on a bad name field and with a short read when cut off |
| ResourceProofs.ParseIndexBadRecord | src/resource.rs:28-43 | an index file fails with the UTF-8 error when a record within its count has a name field that is not UTF-8, and with a short read when that record is cut off |
| ResourceProofs.IndexKeys | src/resource.rs:28-43 | a key is in the parsed index iff some record has it |
| ResourceProofs.IndexLastRecordWins | src/resource.rs:42 | a key maps to the offsets of the last record that has it, sub-record by sub-record |
| ResourceProofs.ReadEntryRoundTrip | src/resource.rs:61-70 | a written archive record reads back with its trimmed name and its payload, or with an empty payload as written |
| ResourceProofs.ExtractStopsAtFirstFailure | src/resource.rs:60-73 | extraction stores the records read before the first unreadable one, in offset order. It passes iff every record was read, and otherwise fails with that record's error |
| ResourceProofs.AddArchiveStopsAtFirstFailure | src/resource.rs:47-76 | `add_archive` stores the records read before the first unreadable one and leaves the index unchanged. It passes iff every record was read, and otherwise fails with the error of the first record it could not read |
| ResourceProofs.ExtractRoundTrip | src/resource.rs:47-76 | with the declared sizes honoured, an archive that holds written records at its indexed offsets stores each record's payload under its name, later records overwriting earlier ones, and passes |
| ResourceProofs.ExtractAsWrittenStoresEmpty | src/resource.rs:68-72 | as written, the same archive stores every record's name with an empty payload |
| ResourceProofs.GetAfterExtract | src/resource.rs:60-84 | after extraction, `get` of a name gives the payload of the last record with that name under the declared sizes, and an empty payload as written |
| ResourceProofs.GetUntouchedByExtract | src/resource.rs:60-84 | `get` of a name no record carries answers as before the extraction, both as written and under the declared sizes |
| ResourceProofs.AddArchiveCaseInsensitive | src/resource.rs:52-55 | two archive names equal up to the case of their ASCII letters extract identically |
| ResourceProofs.AddArchiveUpperName | src/resource.rs:52 | adding an archive under its upper-cased name is adding it under the name given |
| Graphics.DecodePalette | src/graphics.rs:16-60 | a palette decodes iff both magics, the version at byte 20 and room for every counted entry are present. Colour i is bytes 24+4i to 26+4i, with flags dropped. Each magic and version failure gives its own error, checked in file order |
| Graphics.ReadColours | src/graphics.rs:51-57 | n entries read iff 4n bytes remain; entry i gives the red, green and blue bytes at 4i, and the cursor ends 4n further on |
| Graphics.ReadColoursCons | src/graphics.rs:51-57 | the colours of n entries are the first entry's colour followed by the colours of the rest |
| Graphics.FrameAt | src/graphics.rs:99-112 | the frame an offset names decodes iff the offset is at least 8 and the frame header and pixels lie within the body at offset - 8. It then gives that width, height and pixel run; otherwise it gives the underflow or short-read error |
| Graphics.ReadFrames | src/graphics.rs:97-129 | a table of n entries decodes iff it fits and every entry's frame decodes; frame i is the frame entry i names |
| Graphics.ReadFramesCons | src/graphics.rs:97-129 | the frames of a table are its first entry's frame followed by the frames of the rest |
| Graphics.ParseBody | src/graphics.rs:88-129 | a body decodes iff its header and table fit and every frame decodes. It gives exactly `count` frames, frame i being the one table entry i names |
| Graphics.DecodeBitmap | src/graphics.rs:74-132 | a wrong magic gives the magic error. As written, every decode fails. With the declared body size honoured, it succeeds iff the header, the body and every frame are there, and then gives the body's frames under the given name |
| GraphicsProofs.PaletteDecodesTo | src/graphics.rs:16-60 | a well-formed palette whose entries spell out cs decodes to exactly cs |
| GraphicsProofs.PaletteRoundTrip | src/graphics.rs:16-60 | a written palette, with anything after it and whatever its two size fields say, decodes to the name given and the colours written |
| GraphicsProofs.ParseBodyDetermined | src/graphics.rs:97-129 | a well-formed body whose table entries name frames fs decodes to exactly fs |
| GraphicsProofs.EncodedBodyLaidOut | src/graphics.rs:88-112 | a written body is well formed, counts its frames, and its entry i names frame i |
| GraphicsProofs.BodyRoundTrip | src/graphics.rs:88-129 | a written body decodes to the frames written |
| GraphicsProofs.BitmapRoundTrip | src/graphics.rs:74-132 | with the declared body size honoured, a written bitmap decodes to the name given and the frames written, whatever follows it |
| GraphicsProofs.BitmapAsWrittenShortRead | src/graphics.rs:83-90 | as written, every input with the magic and a size field fails with a short read on the empty body |
| GraphicsProofs.BitmapAsWrittenRejectsWritten | src/graphics.rs:83-90 | as written, every written bitmap is rejected, while the corrected reading decodes it |
| GraphicsProofs.ParseBodyRejectsLowOffset | src/graphics.rs:99-102 | a table entry below 8 makes the whole body fail |
| GraphicsProofs.FrameAtSameTail | src/graphics.rs:101-112 | a frame is read only from its own position onwards: two bodies that agree from there decode it alike |
| GraphicsProofs.ParseBodyFollowsTable | src/graphics.rs:97-129 | rewriting a decodable body's table so that entry i repeats old entry p[i], with the frames untouched, decodes to the old frames in the order p gives |

## Left out

- SDL: building a surface from each frame, converting its format, `set_palette` and
  `get_palette`. These are foreign calls. A frame is kept as a plain record of width,
  height and pixels, and creating it never fails. The 8-bit pixel format, and the
  pitch equal to the width, are not checked against the pixel count.
- `keys()` on the resource map: it only exposes the store's key set, which is the
  `files` map's domain here.
- `src/main.rs` sets up the window and the event loop and never calls the loaders.
  `src/atlas.rs` opens the map and two archives and calls `add_archive` through a
  `resource::ResourceMap` type that the resource module does not define; it packs
  nothing. Neither file is part of this model.
- Error messages: the `Display` and `From` conversions of `src/error.rs` are left out.
  - I/O and UTF-8 errors become fixed message strings. Rust's UTF-8 message also
    names the failing index; the model does not.
  - The no-record message omits the archive name that Rust appends after it.
- Streams: Rust's `Read + Seek` stream becomes an in-memory byte sequence, so I/O
  errors other than a short read are not modelled.
- Names.AsciiUpper: upper-cases ASCII letters only. Rust's `to_uppercase` also maps
  non-ASCII letters, some into longer strings. Non-ASCII bytes are kept unchanged.
- Resource.ReadRecords: its own contract states only that keys are kept and that the
  number of keys is bounded. The full statement, that it is the reference fold of the
  records, is `ResourceProofs.ReadEncodedRecords`, for record runs the writer can
  produce.
- Resource.ParseIndex: its own contract states the header checks and bounds. Its full
  result is stated by `ResourceProofs.ParseIndexRoundTrip` for index files the writer
  can produce.
- The RIFF size and the palette's inner size are read but not used by the code. The
  palette round trip holds whatever they say.
- Palette entries: only the colours are kept; the fourth byte of each entry is read
  and dropped, as in the code.
- Concurrency and shared ownership (`&mut self`) are replaced by returning a new map.

## Findings

| source | as written | input that shows it | evidently intended | confidence | as-written member | corrected member |
|---|---|---|---|---|---|---|
| src/resource.rs:68-70 | The payload buffer is `BytesMut::with_capacity(size)`. It has length zero, so `read_exact` reads nothing and every extracted file is stored empty. | An archive record `FOO.BMP` padded to 13 bytes, size 4, payload `01 02 03 04`: `get("FOO.BMP")` gives an empty payload | store the `size` bytes that follow the size field | not executed | ResourceProofs.ExtractAsWrittenStoresEmpty | ResourceProofs.ExtractRoundTrip |
| src/graphics.rs:83-85 | The bitmap body buffer is `BytesMut::with_capacity(size)`, which is empty, so the first `read_u16` of the body fails and every bitmap is rejected. | Any file starting `BMP:` followed by a size field, for example a bitmap written with one 1x1 frame | read the `size` bytes of the body and decode the frames in it | not executed | GraphicsProofs.BitmapAsWrittenRejectsWritten | GraphicsProofs.BitmapRoundTrip |

=== FILE: bytes.dfy ===
/** Bytes and fixed-width unsigned integers, in both byte orders.

    `LittleEndian` and `BigEndian` decode a byte sequence of any width into a
    natural number; `EncodeLittleEndian` and `EncodeBigEndian` are their
    inverses at a given width. The two round-trip lemmas in each direction
    make the decoders injective, which is what lets a magic number be
    compared either as an integer or as its bytes. */
module Bytes {

  type byte = x: int | 0 <= x < 256

  /** 256 to the power n: one more than the largest n-byte unsigned value. */
  function Pow256(n: nat): (r: nat)
    ensures r > 0
  {
    if n == 0 then 1 else 256 * Pow256(n - 1)
  }

  const U16Bound: nat := 0x1_0000
  const U32Bound: nat := 0x1_0000_0000

  lemma BoundsArePowers()
    ensures Pow256(1) == 256
    ensures Pow256(2) == U16Bound
    ensures Pow256(4) == U32Bound
  {
  }

  /** The value of b read least significant byte first. */
  function LittleEndian(b: seq<byte>): (v: nat)
    ensures v < Pow256(|b|)
  {
    if b == [] then 0 else b[0] + 256 * LittleEndian(b[1..])
  }

  /** The value of b read most significant byte first. */
  function BigEndian(b: seq<byte>): (v: nat)
    ensures v < Pow256(|b|)
  {
    if b == [] then 0 else 256 * BigEndian(b[..|b| - 1]) + b[|b| - 1]
  }

  /** The n bytes that hold v least significant first. */
  function EncodeLittleEndian(v: nat, n: nat): (b: seq<byte>)
    requires v < Pow256(n)
    ensures |b| == n
    ensures LittleEndian(b) == v
  {
    if n == 0 then [] else
      var rest := EncodeLittleEndian(v / 256, n - 1);
      assert ([v % 256] + rest)[1..] == rest;
      [v % 256] + rest
  }

  /** The n bytes that hold v most significant first. */
  function EncodeBigEndian(v: nat, n: nat): (b: seq<byte>)
    requires v < Pow256(n)
    ensures |b| == n
    ensures BigEndian(b) == v
  {
    if n == 0 then [] else
      var front := EncodeBigEndian(v / 256, n - 1);
      assert (front + [v % 256])[..n - 1] == front;
      front + [v % 256]
  }

  lemma DivModByte(lo: int, hi: nat)
    requires 0 <= lo < 256
    ensures (lo + 256 * hi) % 256 == lo
    ensures (lo + 256 * hi) / 256 == hi
  {
  }

  /** Encoding the little-endian value of b at b's width gives b back. */
  lemma {:induction false} LittleEndianInjective(b: seq<byte>)
    ensures EncodeLittleEndian(LittleEndian(b), |b|) == b
  {
    if b != [] {
      LittleEndianInjective(b[1..]);
      DivModByte(b[0], LittleEndian(b[1..]));
      assert b == [b[0]] + b[1..];
    }
  }

  /** Encoding the big-endian value of b at b's width gives b back. */
  lemma {:induction false} BigEndianInjective(b: seq<byte>)
    ensures EncodeBigEndian(BigEndian(b), |b|) == b
  {
    if b != [] {
      var front := b[..|b| - 1];
      BigEndianInjective(front);
      DivModByte(b[|b| - 1], BigEndian(front));
      assert b == front + [b[|b| - 1]];
    }
  }

  /** Two byte strings of one width with the same little-endian value are equal. */
  lemma LittleEndianEqual(a: seq<byte>, b: seq<byte>)
    requires |a| == |b|
    ensures LittleEndian(a) == LittleEndian(b) <==> a == b
  {
    if LittleEndian(a) == LittleEndian(b) {
      LittleEndianInjective(a);
      LittleEndianInjective(b);
    }
  }

  /** Two byte strings of one width with the same big-endian value are equal. */
  lemma BigEndianEqual(a: seq<byte>, b: seq<byte>)
    requires |a| == |b|
    ensures BigEndian(a) == BigEndian(b) <==> a == b
  {
    if BigEndian(a) == BigEndian(b) {
      BigEndianInjective(a);
      BigEndianInjective(b);
    }
  }

  /** x occurs in data starting at position p. */
  predicate At(data: seq<byte>, p: nat, x: seq<byte>) {
    p + |x| <= |data| && data[p..p + |x|] == x
  }

  /** x + y occurs at p exactly when x occurs at p and y right after it. */
  lemma AtConcat(data: seq<byte>, p: nat, x: seq<byte>, y: seq<byte>)
    ensures At(data, p, x + y) <==> At(data, p, x) && At(data, p + |x|, y)
  {
    if At(data, p, x + y) {
      assert data[p..p + |x|] == (x + y)[..|x|];
      assert data[p + |x|..p + |x| + |y|] == (x + y)[|x|..];
    }
    if At(data, p, x) && At(data, p + |x|, y) {
      assert data[p..p + |x| + |y|] == data[p..p + |x|] + data[p + |x|..p + |x| + |y|];
    }
  }
}

=== FILE: graphics.dfy ===
/** The palette and indexed-bitmap decoders (`TIM3Palette::new` and
    `TIM3Bitmap::new` in src/graphics.rs).

    Palette layout (a RIFF wrapper):
      "RIFF" (u32 BE) | u32 size (unused) | "PAL data" (u64 BE) |
      u32 inner size | u16 version 0x0300 | u16 colour count |
      per colour: r | g | b | flags (discarded)
    Bitmap layout:
      "BMP:" (u32 BE) | u32 body size | body
    Body layout (positions relative to the body):
      u16 reserved | u16 frame count | per frame: u32 frame offset, counted
      from the start of the 8-byte outer header, so the frame lies at
      offset - 8 in the body
    Frame layout, at its offset - 8 in the body:
      u16 width | u16 height | u8 reserved | u32 pixel count | pixels

    A frame is kept as a plain record of its dimensions and pixel indices. */
module Graphics {
  import opened Wrappers
  import opened Bytes
  import opened Streams
  import opened Names

  datatype Colour = Colour(r: byte, g: byte, b: byte)

  datatype Palette = Palette(name: Name, colours: seq<Colour>)

  datatype Frame = Frame(width: nat, height: nat, pixels: seq<byte>)

  datatype Bitmap = Bitmap(name: Name, frames: seq<Frame>)

  const RiffMagic: nat := 0x5249_4646
  const PalDataMagic: nat := 0x5041_4c20_6461_7461
  const PaletteVersion: nat := 0x0300
  /** Where the version and the colour count sit in a palette. */
  const PaletteVersionAt: nat := 20
  const PaletteCountAt: nat := 22
  /** Bytes before the first colour entry. */
  const PaletteHeaderLength: nat := 24
  const ColourEntryLength: nat := 4

  const BitmapMagic: nat := 0x424d_503a
  /** The magic and body size before the body; frame offsets count it. */
  const OuterHeaderLength: nat := 8
  /** The reserved field and frame count before the frame offset table. */
  const BodyHeaderLength: nat := 4
  const FrameHeaderLength: nat := 9

  const BadRiffMessage := "Expected RIFF for palette"
  const BadPalDataMessage := "Expected 'PAL data' for palette"
  const BadVersionMessage := "Expected version 300 RIFF palette"
  const BadBitmapMessage := "Invalid magic ID for TIM3Bitmap"
  const OffsetUnderflowMessage := "frame offset lies before the body"

  /** The colour count of a palette whose header is complete. */
  function PaletteCount(data: seq<byte>): nat
    requires |data| >= PaletteHeaderLength
  {
    LittleEndian(data[PaletteCountAt..PaletteHeaderLength])
  }

  /** The layout a palette must have to decode: both magic numbers, the
      version (read right after the inner size, at byte 20), and room for
      every colour entry the count announces. */
  predicate PaletteWellFormed(data: seq<byte>) {
    && |data| >= PaletteHeaderLength
    && BigEndian(data[..4]) == RiffMagic
    && BigEndian(data[8..16]) == PalDataMagic
    && LittleEndian(data[PaletteVersionAt..PaletteCountAt]) == PaletteVersion
    && |data| >= PaletteHeaderLength + 4 * PaletteCount(data)
  }

  /** Decodes a palette. The inner size is read, but the buffer it sizes has
      length zero, so nothing more is consumed and the version is read at
      byte 20. */
  function DecodePalette(name: Name, data: seq<byte>): (r: Result<Palette>)
    ensures r.Ok? <==> PaletteWellFormed(data)
    ensures r.Ok? ==> r.value.name == name && |r.value.colours| == PaletteCount(data)
    ensures r.Ok? ==> forall i :: 0 <= i < |r.value.colours| ==>
              r.value.colours[i] == Colour(data[PaletteHeaderLength + 4 * i],
                                           data[PaletteHeaderLength + 4 * i + 1],
                                           data[PaletteHeaderLength + 4 * i + 2])
    ensures |data| >= 4 && BigEndian(data[..4]) != RiffMagic ==>
              r == Err(LoadingError(BadRiffMessage))
    ensures |data| >= 16 && BigEndian(data[..4]) == RiffMagic && BigEndian(data[8..16]) != PalDataMagic ==>
              r == Err(LoadingError(BadPalDataMessage))
    ensures |data| >= PaletteCountAt && BigEndian(data[..4]) == RiffMagic && BigEndian(data[8..16]) == PalDataMagic
            && LittleEndian(data[PaletteVersionAt..PaletteCountAt]) != PaletteVersion ==>
              r == Err(LoadingError(BadVersionMessage))
  {
    var magic :- ReadBE(Stream(data, 0), 4);
    if magic.0 != RiffMagic then Err(LoadingError(BadRiffMessage))
    else
      var riffSize :- ReadLE(magic.1, 4);
      var tag :- ReadBE(riffSize.1, 8);
      if tag.0 != PalDataMagic then Err(LoadingError(BadPalDataMessage))
      else
        var innerSize :- ReadLE(tag.1, 4);
        var inner := ReadPayload(innerSize.1, innerSize.0, WithCapacity).value;
        var version :- ReadLE(inner.1, 2);
        if version.0 != PaletteVersion then Err(LoadingError(BadVersionMessage))
        else
          var count :- ReadLE(version.1, 2);
          var colours :- ReadColours(count.1, count.0);
          Ok(Palette(name, colours.0))
  }

  /** Reads n 4-byte colour entries, keeping red, green and blue in order
      and discarding the flags byte. */
  function ReadColours(s: Stream, n: nat): (r: Result<(seq<Colour>, Stream)>)
    ensures r.Ok? <==> n == 0 || s.pos + 4 * n <= |s.data|
    ensures r.Ok? ==> |r.value.0| == n && r.value.1 == Seek(s, s.pos + 4 * n)
    ensures r.Ok? ==> forall i :: 0 <= i < n ==>
              r.value.0[i] == Colour(s.data[s.pos + 4 * i], s.data[s.pos + 4 * i + 1], s.data[s.pos + 4 * i + 2])
    decreases n
  {
    if n == 0 then Ok(([], s))
    else
      var red :- ReadU8(s);
      var green :- ReadU8(red.1);
      var blue :- ReadU8(green.1);
      var flags :- ReadU8(blue.1);
      var rest :- ReadColours(flags.1, n - 1);
      ReadColoursCons(s, n, Colour(red.0, green.0, blue.0), rest.0);
      Ok(([Colour(red.0, green.0, blue.0)] + rest.0, rest.1))
  }

  /** The colours of n entries are the first entry's colour followed by
      the colours of the n - 1 entries after it. */
  lemma ReadColoursCons(s: Stream, n: nat, first: Colour, rest: seq<Colour>)
    requires n > 0 && s.pos + 4 * n <= |s.data|
    requires first == Colour(s.data[s.pos], s.data[s.pos + 1], s.data[s.pos + 2])
    requires |rest| == n - 1
    requires forall i :: 0 <= i < n - 1 ==>
               rest[i] == Colour(s.data[s.pos + 4 + 4 * i], s.data[s.pos + 4 + 4 * i + 1], s.data[s.pos + 4 + 4 * i + 2])
    ensures forall i :: 0 <= i < n ==>
              ([first] + rest)[i] == Colour(s.data[s.pos + 4 * i], s.data[s.pos + 4 * i + 1], s.data[s.pos + 4 * i + 2])
  {
    forall i | 0 <= i < n
      ensures ([first] + rest)[i] == Colour(s.data[s.pos + 4 * i], s.data[s.pos + 4 * i + 1], s.data[s.pos + 4 * i + 2])
    {
      if i > 0 {
        var j := i - 1;
        assert s.pos + 4 + 4 * j == s.pos + 4 * i;
        assert ([first] + rest)[i] == rest[j];
      }
    }
  }

  /** The frame stored at body position h lies wholly inside the body. */
  predicate FrameFits(body: seq<byte>, h: nat) {
    h + FrameHeaderLength <= |body| && h + FrameHeaderLength + LittleEndian(body[h + 5..h + 9]) <= |body|
  }

  /** The frame stored at body position h, read field by field. */
  function FrameLayout(body: seq<byte>, h: nat): Frame
    requires FrameFits(body, h)
  {
    Frame(LittleEndian(body[h..h + 2]), LittleEndian(body[h + 2..h + 4]),
          body[h + 9..h + 9 + LittleEndian(body[h + 5..h + 9])])
  }

  /** Decodes the frame whose outer-relative offset is given. An offset
      below 8 would place the frame before the body: the subtraction
      underflows, and the decode fails. */
  function FrameAt(body: seq<byte>, offset: nat): (r: Result<Frame>)
    ensures r.Ok? <==> offset >= OuterHeaderLength && FrameFits(body, offset - OuterHeaderLength)
    ensures r.Ok? ==> r.value == FrameLayout(body, offset - OuterHeaderLength)
    ensures r.Err? ==>
              r.error == LoadingError(if offset < OuterHeaderLength then OffsetUnderflowMessage else ShortReadMessage)
  {
    if offset < OuterHeaderLength then Err(LoadingError(OffsetUnderflowMessage))
    else
      var cursor := Seek(Stream(body, 0), offset - OuterHeaderLength);
      var width :- ReadLE(cursor, 2);
      var height :- ReadLE(width.1, 2);
      var reserved :- ReadLE(height.1, 1);
      var size :- ReadLE(reserved.1, 4);
      var pixels :- ReadBytes(size.1, size.0);
      Ok(Frame(width.0, height.0, pixels.0))
  }

  /** The i-th entry of the frame offset table that starts at position at. */
  function TableEntry(body: seq<byte>, at: nat, i: nat): nat
    requires at + 4 * i + 4 <= |body|
  {
    LittleEndian(body[at + 4 * i..at + 4 * i + 4])
  }

  /** Every entry of an n-entry table at position at names a frame that decodes. */
  predicate FramesDecode(body: seq<byte>, at: nat, n: nat)
    requires at + 4 * n <= |body|
  {
    forall i :: 0 <= i < n ==> FrameAt(body, TableEntry(body, at, i)).Ok?
  }

  /** Shifting the table start by one entry shifts the entry numbers by one. */
  lemma TableEntryShift(body: seq<byte>, at: nat, i: nat)
    requires at + 4 * i + 8 <= |body|
    ensures TableEntry(body, at + 4, i) == TableEntry(body, at, i + 1)
  {
  }

  /** Reads n table entries from position at and decodes, after each, the
      frame it names, keeping the frames in table order. */
  function ReadFrames(body: seq<byte>, at: nat, n: nat): (r: Result<seq<Frame>>)
    ensures r.Ok? <==> n == 0 || (at + 4 * n <= |body| && FramesDecode(body, at, n))
    ensures r.Ok? ==> |r.value| == n
    ensures r.Ok? ==> forall i :: 0 <= i < n ==> FrameAt(body, TableEntry(body, at, i)) == Ok(r.value[i])
    decreases n
  {
    if n == 0 then Ok([])
    else
      ReadFramesStep(body, at, n);
      var entry :- ReadLE(Stream(body, at), 4);
      var frame :- FrameAt(body, entry.0);
      var rest :- ReadFrames(body, at + 4, n - 1);
      ReadFramesCons(body, at, n, frame, rest);
      Ok([frame] + rest)
  }

  /** A table decodes when its first frame does and the rest of it does. */
  lemma ReadFramesStep(body: seq<byte>, at: nat, n: nat)
    requires n > 0
    ensures at + 4 * n <= |body| ==>
              (FramesDecode(body, at, n) <==>
                 FrameAt(body, TableEntry(body, at, 0)).Ok? && FramesDecode(body, at + 4, n - 1))
  {
    if at + 4 * n <= |body| {
      var next := at + 4;
      forall i | 0 <= i < n - 1
        ensures FrameAt(body, TableEntry(body, next, i)) == FrameAt(body, TableEntry(body, at, i + 1))
      {
        TableEntryShift(body, at, i);
      }
      if FrameAt(body, TableEntry(body, at, 0)).Ok? && FramesDecode(body, next, n - 1) {
        forall i | 0 <= i < n
          ensures FrameAt(body, TableEntry(body, at, i)).Ok?
        {
          if i > 0 {
            assert FrameAt(body, TableEntry(body, next, i - 1)).Ok?;
          }
        }
      }
    }
  }

  /** The frames of a table are its first frame followed by the frames of the rest. */
  lemma ReadFramesCons(body: seq<byte>, at: nat, n: nat, frame: Frame, rest: seq<Frame>)
    requires n > 0 && at + 4 * n <= |body|
    requires FrameAt(body, TableEntry(body, at, 0)) == Ok(frame)
    requires |rest| == n - 1
    requires forall i :: 0 <= i < n - 1 ==> FrameAt(body, TableEntry(body, at + 4, i)) == Ok(rest[i])
    ensures forall i :: 0 <= i < n ==> FrameAt(body, TableEntry(body, at, i)) == Ok(([frame] + rest)[i])
  {
    forall i | 0 <= i < n
      ensures FrameAt(body, TableEntry(body, at, i)) == Ok(([frame] + rest)[i])
    {
      if i > 0 {
        ReadFramesConsAt(body, at, n, frame, rest, i);
      }
    }
  }

  /** One later entry of ReadFramesCons: entry i of the table is entry i - 1
      of the table after its first entry. */
  lemma ReadFramesConsAt(body: seq<byte>, at: nat, n: nat, frame: Frame, rest: seq<Frame>, i: nat)
    requires 0 < i < n && at + 4 * n <= |body| && |rest| == n - 1
    requires FrameAt(body, TableEntry(body, at + 4, i - 1)) == Ok(rest[i - 1])
    ensures FrameAt(body, TableEntry(body, at, i)) == Ok(([frame] + rest)[i])
  {
    TableEntryShift(body, at, i - 1);
  }

  /** The frame count of a body whose header is complete. */
  function FrameCount(body: seq<byte>): nat
    requires |body| >= BodyHeaderLength
  {
    LittleEndian(body[2..4])
  }

  /** The layout a body must have to decode: a header, a complete offset
      table, and a decodable frame behind every entry. */
  predicate BodyWellFormed(body: seq<byte>) {
    && |body| >= BodyHeaderLength
    && |body| >= BodyHeaderLength + 4 * FrameCount(body)
    && FramesDecode(body, BodyHeaderLength, FrameCount(body))
  }

  /** Decodes a bitmap body: frame i is the frame named by table entry i,
      whatever the numeric order of the offsets. */
  function ParseBody(body: seq<byte>): (r: Result<seq<Frame>>)
    ensures r.Ok? <==> BodyWellFormed(body)
    ensures r.Ok? ==> |r.value| == FrameCount(body)
    ensures r.Ok? ==> forall i :: 0 <= i < |r.value| ==>
              FrameAt(body, TableEntry(body, BodyHeaderLength, i)) == Ok(r.value[i])
  {
    var reserved :- ReadLE(Stream(body, 0), 2);
    var count :- ReadLE(reserved.1, 2);
    ReadFrames(body, count.1.pos, count.0)
  }

  /** The body size field of a bitmap whose outer header is complete. */
  function BodySize(data: seq<byte>): nat
    requires |data| >= OuterHeaderLength
  {
    LittleEndian(data[4..8])
  }

  /** Decodes a bitmap: the magic, the body size, the body, then the frames
      within the body. `WithCapacity` is the code as written: the body it
      reads is empty, so the decode always fails. */
  function DecodeBitmap(name: Name, data: seq<byte>, read: PayloadRead): (r: Result<Bitmap>)
    ensures |data| >= 4 && BigEndian(data[..4]) != BitmapMagic ==>
              r == Err(LoadingError(BadBitmapMessage))
    ensures read == WithCapacity ==> r.Err?
    ensures read == DeclaredLength ==>
              (r.Ok? <==> && |data| >= OuterHeaderLength
                          && BigEndian(data[..4]) == BitmapMagic
                          && OuterHeaderLength + BodySize(data) <= |data|
                          && BodyWellFormed(data[8..8 + BodySize(data)]))
    ensures r.Ok? ==> r.value.name == name
    ensures r.Ok? ==> ParseBody(data[8..8 + BodySize(data)]) == Ok(r.value.frames)
  {
    var magic :- ReadBE(Stream(data, 0), 4);
    if magic.0 != BitmapMagic then Err(LoadingError(BadBitmapMessage))
    else
      var size :- ReadLE(magic.1, 4);
      assert size.0 == BodySize(data) && size.1.pos == OuterHeaderLength;
      var body :- ReadPayload(size.1, size.0, read);
      assert read == DeclaredLength ==> body.0 == data[8..8 + BodySize(data)];
      var frames :- ParseBody(body.0);
      Ok(Bitmap(name, frames))
  }
}

=== FILE: graphics_proofs.dfy ===
/** Properties of the palette and bitmap decoders: the layouts they accept,
    written out by encoders, decode back to what was written; the bitmap
    decoder as written rejects every such file; and the frames follow the
    offset table, not the order of the frames in the body. */
module GraphicsProofs {
  import opened Wrappers
  import opened Bytes
  import opened Streams
  import opened Names
  import opened Graphics

  // ---------------------------------------------------------------------
  // Palettes

  /** Byte j of the 4-byte entry of colour c: red, green, blue, then a
      flags byte, written as zero. */
  function EntryByte(c: Colour, j: nat): byte {
    if j == 0 then c.r else if j == 1 then c.g else if j == 2 then c.b else 0
  }

  function EncodeColours(cs: seq<Colour>): (b: seq<byte>)
    ensures |b| == 4 * |cs|
  {
    seq(4 * |cs|, k requires 0 <= k < 4 * |cs| => EntryByte(cs[k / 4], k % 4))
  }

  /** Where the three colour bytes of entry i lie. */
  lemma {:induction false} EncodeColoursAt(cs: seq<Colour>, i: nat)
    requires i < |cs|
    ensures EncodeColours(cs)[4 * i] == cs[i].r
    ensures EncodeColours(cs)[4 * i + 1] == cs[i].g
    ensures EncodeColours(cs)[4 * i + 2] == cs[i].b
  {
  }

  /** The 24-byte palette header. The RIFF size and the inner size are
      free: the decoder reads both and uses neither. */
  function PaletteHeader(riffSize: nat, innerSize: nat, count: nat): (b: seq<byte>)
    requires riffSize < U32Bound && innerSize < U32Bound && count < U16Bound
    ensures |b| == PaletteHeaderLength
  {
    EncodeBigEndian(RiffMagic, 4) + EncodeLittleEndian(riffSize, 4) + EncodeBigEndian(PalDataMagic, 8)
      + EncodeLittleEndian(innerSize, 4) + EncodeLittleEndian(PaletteVersion, 2) + EncodeLittleEndian(count, 2)
  }

  /** The palette file that lists the given colours. */
  function EncodePalette(riffSize: nat, innerSize: nat, cs: seq<Colour>): seq<byte>
    requires riffSize < U32Bound && innerSize < U32Bound && |cs| < U16Bound
  {
    PaletteHeader(riffSize, innerSize, |cs|) + EncodeColours(cs)
  }

  /** The fields of the header, at the positions the decoder reads them. */
  lemma {:induction false} PaletteHeaderFields(riffSize: nat, innerSize: nat, count: nat)
    requires riffSize < U32Bound && innerSize < U32Bound && count < U16Bound
    ensures var h := PaletteHeader(riffSize, innerSize, count);
      && BigEndian(h[..4]) == RiffMagic
      && BigEndian(h[8..16]) == PalDataMagic
      && LittleEndian(h[PaletteVersionAt..PaletteCountAt]) == PaletteVersion
      && LittleEndian(h[PaletteCountAt..PaletteHeaderLength]) == count
  {
    BoundsArePowers();
    HeaderSlices(EncodeBigEndian(RiffMagic, 4), EncodeLittleEndian(riffSize, 4), EncodeBigEndian(PalDataMagic, 8),
                 EncodeLittleEndian(innerSize, 4), EncodeLittleEndian(PaletteVersion, 2), EncodeLittleEndian(count, 2));
  }

  /** Where the fields the decoder checks lie in a 24-byte header. */
  lemma {:induction false} HeaderSlices(a: seq<byte>, b: seq<byte>, c: seq<byte>, d: seq<byte>, e: seq<byte>, f: seq<byte>)
    requires |a| == 4 && |b| == 4 && |c| == 8 && |d| == 4 && |e| == 2 && |f| == 2
    ensures var h := a + b + c + d + e + f;
      h[..4] == a && h[8..16] == c && h[PaletteVersionAt..PaletteCountAt] == e && h[PaletteCountAt..PaletteHeaderLength] == f
  {
  }

  /** The header fields and the entries of a palette file, at the
      positions the decoder reads them. */
  lemma {:induction false} PaletteParts(h: seq<byte>, c: seq<byte>, rest: seq<byte>)
    requires |h| == PaletteHeaderLength
    ensures var d := h + c + rest;
      && |d| >= PaletteHeaderLength + |c|
      && d[..4] == h[..4] && d[8..16] == h[8..16]
      && d[PaletteVersionAt..PaletteCountAt] == h[PaletteVersionAt..PaletteCountAt]
      && d[PaletteCountAt..PaletteHeaderLength] == h[PaletteCountAt..PaletteHeaderLength]
      && forall k :: 0 <= k < |c| ==> d[PaletteHeaderLength + k] == c[k]
  {
  }

  /** A well-formed palette whose entries spell out cs decodes to cs. */
  lemma {:induction false} PaletteDecodesTo(name: Name, data: seq<byte>, cs: seq<Colour>)
    requires PaletteWellFormed(data) && PaletteCount(data) == |cs|
    requires forall i :: 0 <= i < |cs| ==> Colour(data[PaletteHeaderLength + 4 * i],
                                                  data[PaletteHeaderLength + 4 * i + 1],
                                                  data[PaletteHeaderLength + 4 * i + 2]) == cs[i]
    ensures DecodePalette(name, data) == Ok(Palette(name, cs))
  {
    var r := DecodePalette(name, data);
    assert forall i :: 0 <= i < |cs| ==> r.value.colours[i] == cs[i];
    assert r.value.colours == cs;
  }

  /** Entry i of the colours written after a 24-byte header. */
  lemma {:induction false} ColourInData(h: seq<byte>, cs: seq<Colour>, rest: seq<byte>, i: nat)
    requires |h| == PaletteHeaderLength && i < |cs|
    ensures var data := h + EncodeColours(cs) + rest;
      Colour(data[PaletteHeaderLength + 4 * i],
             data[PaletteHeaderLength + 4 * i + 1],
             data[PaletteHeaderLength + 4 * i + 2]) == cs[i]
  {
    PaletteParts(h, EncodeColours(cs), rest);
    EncodeColoursAt(cs, i);
    var data := h + EncodeColours(cs) + rest;
    assert data[PaletteHeaderLength + 4 * i] == EncodeColours(cs)[4 * i];
    assert data[PaletteHeaderLength + (4 * i + 1)] == EncodeColours(cs)[4 * i + 1];
    assert data[PaletteHeaderLength + (4 * i + 2)] == EncodeColours(cs)[4 * i + 2];
  }

  /** A written palette decodes to the name given and the colours written,
      whatever the two size fields say and whatever follows the entries. */
  lemma {:induction false} PaletteRoundTrip(name: Name, riffSize: nat, innerSize: nat, cs: seq<Colour>, rest: seq<byte>)
    requires riffSize < U32Bound && innerSize < U32Bound && |cs| < U16Bound
    ensures DecodePalette(name, EncodePalette(riffSize, innerSize, cs) + rest) == Ok(Palette(name, cs))
  {
    var h := PaletteHeader(riffSize, innerSize, |cs|);
    var data := h + EncodeColours(cs) + rest;
    PaletteHeaderFields(riffSize, innerSize, |cs|);
    PaletteParts(h, EncodeColours(cs), rest);
    forall i | 0 <= i < |cs|
      ensures Colour(data[PaletteHeaderLength + 4 * i],
                     data[PaletteHeaderLength + 4 * i + 1],
                     data[PaletteHeaderLength + 4 * i + 2]) == cs[i]
    {
      ColourInData(h, cs, rest, i);
    }
    PaletteDecodesTo(name, data, cs);
  }

  // ---------------------------------------------------------------------
  // Bitmaps

  /** The frame can be written: u16 dimensions and a u32 pixel count. */
  predicate FrameWritable(f: Frame) {
    f.width < U16Bound && f.height < U16Bound && |f.pixels| < U32Bound
  }

  predicate FramesWritable(fs: seq<Frame>) {
    forall i :: 0 <= i < |fs| ==> FrameWritable(fs[i])
  }

  /** A frame as stored: width, height, a reserved zero byte, the pixel
      count and the pixels. */
  function EncodeFrame(f: Frame): (b: seq<byte>)
    requires FrameWritable(f)
    ensures |b| == FrameHeaderLength + |f.pixels|
  {
    EncodeLittleEndian(f.width, 2) + EncodeLittleEndian(f.height, 2) + [0]
      + EncodeLittleEndian(|f.pixels|, 4) + f.pixels
  }

  /** The number of bytes the frames take when stored one after the other. */
  function FramesSize(fs: seq<Frame>): nat
    decreases |fs|
  {
    if fs == [] then 0 else FrameHeaderLength + |fs[0].pixels| + FramesSize(fs[1..])
  }

  /** The frames stored one after the other. */
  function EncodeFrames(fs: seq<Frame>): (b: seq<byte>)
    requires FramesWritable(fs)
    ensures |b| == FramesSize(fs)
    decreases |fs|
  {
    if fs == [] then [] else EncodeFrame(fs[0]) + EncodeFrames(fs[1..])
  }

  /** The bitmap can be written: a u16 frame count, writable frames, and
      every offset and the body size within u32. */
  predicate BitmapWritable(fs: seq<Frame>) {
    && |fs| < U16Bound
    && FramesWritable(fs)
    && FramesBase(fs) + FramesSize(fs) < U32Bound
  }

  /** The outer-relative offset of the first frame when the frames follow
      the table directly. */
  function FramesBase(fs: seq<Frame>): nat {
    OuterHeaderLength + BodyHeaderLength + 4 * |fs|
  }

  /** The offset table for frames stored in order from outer-relative
      offset at: one little-endian u32 per frame. */
  function EncodeTable(fs: seq<Frame>, at: nat): (b: seq<byte>)
    requires at + FramesSize(fs) < U32Bound
    ensures |b| == 4 * |fs|
    decreases |fs|
  {
    if fs == [] then []
    else EncodeLittleEndian(at, 4) + EncodeTable(fs[1..], at + FrameHeaderLength + |fs[0].pixels|)
  }

  /** A bitmap body: a reserved zero u16, the frame count, the table, then
      the frames in order. */
  function EncodeBody(fs: seq<Frame>): (b: seq<byte>)
    requires BitmapWritable(fs)
    ensures |b| == BodyHeaderLength + 4 * |fs| + FramesSize(fs)
  {
    [0, 0] + EncodeLittleEndian(|fs|, 2) + EncodeTable(fs, FramesBase(fs)) + EncodeFrames(fs)
  }

  /** The bitmap file that holds the given frames. */
  function EncodeBitmap(fs: seq<Frame>): seq<byte>
    requires BitmapWritable(fs)
  {
    EncodeBigEndian(BitmapMagic, 4) + EncodeLittleEndian(|EncodeBody(fs)|, 4) + EncodeBody(fs)
  }

  /** Entry i of an encoded table lies at 4 * i and holds the offset of
      frame i. */
  lemma {:induction false} TableEntryAt(data: seq<byte>, p: nat, fs: seq<Frame>, at: nat, i: nat)
    requires at + FramesSize(fs) < U32Bound
    requires At(data, p, EncodeTable(fs, at))
    requires i < |fs|
    ensures at + FramesSize(fs[..i]) < U32Bound
    ensures At(data, p + 4 * i, EncodeLittleEndian(at + FramesSize(fs[..i]), 4))
    decreases |fs|
  {
    var next := at + FrameHeaderLength + |fs[0].pixels|;
    AtConcat(data, p, EncodeLittleEndian(at, 4), EncodeTable(fs[1..], next));
    if i == 0 {
      assert fs[..i] == [];
    } else {
      TableEntryAt(data, p + 4, fs[1..], next, i - 1);
      assert fs[..i][1..] == fs[1..][..i - 1];
    }
  }

  /** Frame i of encoded frames lies after the frames before it. */
  lemma {:induction false} FrameStoredAt(data: seq<byte>, p: nat, fs: seq<Frame>, i: nat)
    requires FramesWritable(fs)
    requires At(data, p, EncodeFrames(fs))
    requires i < |fs|
    ensures At(data, p + FramesSize(fs[..i]), EncodeFrame(fs[i]))
    decreases |fs|
  {
    AtConcat(data, p, EncodeFrame(fs[0]), EncodeFrames(fs[1..]));
    if i > 0 {
      FrameStoredAt(data, p + |EncodeFrame(fs[0])|, fs[1..], i - 1);
      assert fs[..i][1..] == fs[1..][..i - 1];
    }
  }

  /** The fields of a stored frame, at the positions the decoder reads them. */
  lemma {:induction false} FrameFields(body: seq<byte>, h: nat, w: seq<byte>, ht: seq<byte>, z: seq<byte>, n: seq<byte>, px: seq<byte>)
    requires |w| == 2 && |ht| == 2 && |z| == 1 && |n| == 4
    requires At(body, h, w + ht + z + n + px)
    ensures h + FrameHeaderLength + |px| <= |body|
    ensures body[h..h + 2] == w && body[h + 2..h + 4] == ht && body[h + 5..h + 9] == n
    ensures body[h + 9..h + 9 + |px|] == px
  {
    AtConcat(body, h, w + ht + z + n, px);
    AtConcat(body, h, w + ht + z, n);
    AtConcat(body, h, w + ht, z);
    AtConcat(body, h, w, ht);
  }

  /** A frame stored at body position h decodes, from offset h + 8, to itself. */
  lemma {:induction false} FrameAtEncoded(body: seq<byte>, h: nat, f: Frame, offset: nat)
    requires FrameWritable(f)
    requires At(body, h, EncodeFrame(f)) && offset == h + OuterHeaderLength
    ensures FrameAt(body, offset) == Ok(f)
  {
    BoundsArePowers();
    FrameFields(body, h, EncodeLittleEndian(f.width, 2), EncodeLittleEndian(f.height, 2), [0],
                EncodeLittleEndian(|f.pixels|, 4), f.pixels);
  }

  /** Four little-endian bytes at q read back as the value they encode. */
  lemma {:induction false} ReadFourAt(data: seq<byte>, q: nat, v: nat)
    requires v < U32Bound && At(data, q, EncodeLittleEndian(v, 4))
    ensures q + 4 <= |data| && LittleEndian(data[q..q + 4]) == v
  {
  }

  /** Entry i of a table encoded at body position 4 holds the offset of
      frame i. */
  lemma {:induction false} TableValue(body: seq<byte>, fs: seq<Frame>, at: nat, i: nat)
    requires at + FramesSize(fs) < U32Bound && i < |fs|
    requires At(body, BodyHeaderLength, EncodeTable(fs, at))
    ensures BodyHeaderLength + 4 * i + 4 <= |body|
    ensures TableEntry(body, BodyHeaderLength, i) == at + FramesSize(fs[..i])
  {
    TableEntryAt(body, BodyHeaderLength, fs, at, i);
    ReadFourAt(body, BodyHeaderLength + 4 * i, at + FramesSize(fs[..i]));
  }

  /** Frame i of frames encoded at body position p decodes from its
      outer-relative offset. */
  lemma {:induction false} FrameValue(body: seq<byte>, fs: seq<Frame>, p: nat, i: nat, offset: nat)
    requires FramesWritable(fs) && i < |fs|
    requires At(body, p, EncodeFrames(fs))
    requires offset == p + FramesSize(fs[..i]) + OuterHeaderLength
    ensures FrameAt(body, offset) == Ok(fs[i])
  {
    FrameStoredAt(body, p, fs, i);
    FrameAtEncoded(body, p + FramesSize(fs[..i]), fs[i], offset);
  }

  /** In a body laid out as the encoder lays it out, table entry i names
      frame i. */
  lemma {:induction false} LaidOutFrame(body: seq<byte>, fs: seq<Frame>, i: nat)
    requires BitmapWritable(fs) && i < |fs|
    requires At(body, BodyHeaderLength, EncodeTable(fs, FramesBase(fs)))
    requires At(body, BodyHeaderLength + 4 * |fs|, EncodeFrames(fs))
    ensures BodyHeaderLength + 4 * i + 4 <= |body|
    ensures FrameAt(body, TableEntry(body, BodyHeaderLength, i)) == Ok(fs[i])
  {
    TableValue(body, fs, FramesBase(fs), i);
    FrameValue(body, fs, BodyHeaderLength + 4 * |fs|, i, TableEntry(body, BodyHeaderLength, i));
  }

  /** Each of four concatenated sequences occurs where it was put, at the
      positions given. */
  lemma {:induction false} AtParts(w: seq<byte>, x: seq<byte>, y: seq<byte>, z: seq<byte>, px: nat, py: nat, pz: nat)
    requires px == |w| && py == px + |x| && pz == py + |y|
    ensures At(w + x + y + z, px, x)
    ensures At(w + x + y + z, py, y)
    ensures At(w + x + y + z, pz, z)
  {
    var all := w + x + y + z;
    assert all[px..py] == x;
    assert all[py..pz] == y;
    assert all[pz..pz + |z|] == z;
  }

  /** Where the parts of an encoded body lie. */
  lemma {:induction false} BodyParts(fs: seq<Frame>)
    requires BitmapWritable(fs)
    ensures At(EncodeBody(fs), 2, EncodeLittleEndian(|fs|, 2))
    ensures At(EncodeBody(fs), BodyHeaderLength, EncodeTable(fs, FramesBase(fs)))
    ensures At(EncodeBody(fs), BodyHeaderLength + 4 * |fs|, EncodeFrames(fs))
  {
    AtParts([0, 0], EncodeLittleEndian(|fs|, 2), EncodeTable(fs, FramesBase(fs)), EncodeFrames(fs),
            2, BodyHeaderLength, BodyHeaderLength + 4 * |fs|);
  }

  /** A written body parses to the frames written, in order. */
  lemma {:induction false} BodyRoundTrip(fs: seq<Frame>)
    requires BitmapWritable(fs)
    ensures ParseBody(EncodeBody(fs)) == Ok(fs)
  {
    EncodedBodyLaidOut(fs);
    ParseBodyDetermined(EncodeBody(fs), fs);
  }

  /** A well-formed body whose table entries name the frames fs, in order,
      decodes to exactly fs. */
  lemma {:induction false} ParseBodyDetermined(body: seq<byte>, fs: seq<Frame>)
    requires BodyWellFormed(body) && FrameCount(body) == |fs|
    requires forall i :: 0 <= i < |fs| ==> FrameAt(body, TableEntry(body, BodyHeaderLength, i)) == Ok(fs[i])
    ensures ParseBody(body) == Ok(fs)
  {
    var r := ParseBody(body);
    assert forall i :: 0 <= i < |fs| ==> r.value[i] == fs[i];
    assert r.value == fs;
  }

  /** A written body is well formed, counts its frames and holds each one
      where its table entry points. */
  lemma {:induction false} EncodedBodyLaidOut(fs: seq<Frame>)
    requires BitmapWritable(fs)
    ensures BodyWellFormed(EncodeBody(fs)) && FrameCount(EncodeBody(fs)) == |fs|
    ensures forall i :: 0 <= i < |fs| ==>
              FrameAt(EncodeBody(fs), TableEntry(EncodeBody(fs), BodyHeaderLength, i)) == Ok(fs[i])
  {
    BoundsArePowers();
    var body := EncodeBody(fs);
    BodyParts(fs);
    assert body[2..4] == EncodeLittleEndian(|fs|, 2);
    assert FrameCount(body) == |fs|;
    forall i | 0 <= i < |fs|
      ensures FrameAt(body, TableEntry(body, BodyHeaderLength, i)) == Ok(fs[i])
    {
      LaidOutFrame(body, fs, i);
    }
    assert BodyWellFormed(body);
  }

  /** With the declared body size honoured, a written bitmap decodes to the
      name given and the frames written, whatever follows the body. */
  lemma {:induction false} BitmapRoundTrip(name: Name, fs: seq<Frame>, rest: seq<byte>)
    requires BitmapWritable(fs)
    ensures DecodeBitmap(name, EncodeBitmap(fs) + rest, DeclaredLength) == Ok(Bitmap(name, fs))
  {
    BoundsArePowers();
    var body := EncodeBody(fs);
    var data := EncodeBitmap(fs) + rest;
    assert data[..4] == EncodeBigEndian(BitmapMagic, 4);
    assert data[4..8] == EncodeLittleEndian(|body|, 4);
    assert data[8..8 + |body|] == body;
    BodyRoundTrip(fs);
  }

  /** As written, every input that passes the magic and size reads fails at
      the first read from the (empty) body. */
  lemma {:induction false} BitmapAsWrittenShortRead(name: Name, data: seq<byte>)
    requires |data| >= OuterHeaderLength && BigEndian(data[..4]) == BitmapMagic
    ensures DecodeBitmap(name, data, WithCapacity) == Err(LoadingError(ShortReadMessage))
  {
  }

  /** So the code as written rejects every bitmap the corrected reading
      accepts, such as any written one. */
  lemma {:induction false} BitmapAsWrittenRejectsWritten(name: Name, fs: seq<Frame>)
    requires BitmapWritable(fs)
    ensures DecodeBitmap(name, EncodeBitmap(fs), WithCapacity) == Err(LoadingError(ShortReadMessage))
    ensures DecodeBitmap(name, EncodeBitmap(fs), DeclaredLength) == Ok(Bitmap(name, fs))
  {
    var data := EncodeBitmap(fs);
    BitmapRoundTrip(name, fs, []);
    assert data + [] == data;
    EncodedBitmapMagic(fs);
    BitmapAsWrittenShortRead(name, data);
  }

  /** A written bitmap starts with the bitmap magic and a full outer header. */
  lemma {:induction false} EncodedBitmapMagic(fs: seq<Frame>)
    requires BitmapWritable(fs)
    ensures |EncodeBitmap(fs)| >= OuterHeaderLength && BigEndian(EncodeBitmap(fs)[..4]) == BitmapMagic
  {
    BoundsArePowers();
    assert EncodeBitmap(fs)[..4] == EncodeBigEndian(BitmapMagic, 4);
  }

  /** A table entry below 8 would place its frame before the body: the
      whole body is rejected. */
  lemma {:induction false} ParseBodyRejectsLowOffset(body: seq<byte>, i: nat)
    requires |body| >= BodyHeaderLength && |body| >= BodyHeaderLength + 4 * FrameCount(body)
    requires i < FrameCount(body) && TableEntry(body, BodyHeaderLength, i) < OuterHeaderLength
    ensures ParseBody(body).Err?
  {
    assert !FrameAt(body, TableEntry(body, BodyHeaderLength, i)).Ok?;
  }

  /** Two sequences that agree from position g on agree on every slice
      that starts there or later. */
  lemma {:induction false} SameTailSlice(a: seq<byte>, b: seq<byte>, g: nat, x: nat, y: nat)
    requires |a| == |b| && g <= x <= y <= |a|
    requires a[g..] == b[g..]
    ensures a[x..y] == b[x..y]
  {
    forall k | x <= k < y
      ensures a[k] == b[k]
    {
      assert a[k] == a[g..][k - g];
      assert b[k] == b[g..][k - g];
    }
  }

  /** Two bodies that agree from position g on hold the same frame at any
      position h from g on. */
  lemma {:induction false} FrameLayoutSameTail(body: seq<byte>, body': seq<byte>, g: nat, h: nat)
    requires |body| == |body'| && g <= h <= |body|
    requires body[g..] == body'[g..]
    ensures FrameFits(body, h) <==> FrameFits(body', h)
    ensures FrameFits(body, h) ==> FrameLayout(body, h) == FrameLayout(body', h)
  {
    if h + FrameHeaderLength <= |body| {
      SameTailSlice(body, body', g, h, h + 2);
      SameTailSlice(body, body', g, h + 2, h + 4);
      SameTailSlice(body, body', g, h + 5, h + 9);
      var size := LittleEndian(body[h + 5..h + 9]);
      if h + FrameHeaderLength + size <= |body| {
        SameTailSlice(body, body', g, h + 9, h + 9 + size);
      }
    }
  }

  /** Two bodies that agree from position g on decode the same frame at
      any offset that lies there: a frame is read only from its position
      onwards. */
  lemma {:induction false} FrameAtSameTail(body: seq<byte>, body': seq<byte>, g: nat, offset: nat)
    requires |body| == |body'| && g <= |body|
    requires body[g..] == body'[g..]
    requires offset >= OuterHeaderLength + g
    ensures FrameAt(body, offset) == FrameAt(body', offset)
  {
    var h := offset - OuterHeaderLength;
    if h <= |body| {
      FrameLayoutSameTail(body, body', g, h);
    }
    if FrameFits(body, h) {
      assert FrameAt(body, offset) == Ok(FrameLayout(body, h));
      assert FrameAt(body', offset) == Ok(FrameLayout(body', h));
    } else {
      assert FrameAt(body, offset) == Err(LoadingError(ShortReadMessage));
      assert FrameAt(body', offset) == Err(LoadingError(ShortReadMessage));
    }
  }

  /** The frames follow the table, not the order of the frames in the
      body: rewriting the table of a decodable body so that entry i repeats
      the old entry p[i], leaving the frames region from g on untouched,
      decodes to the old frames picked in the order p gives. */
  lemma {:induction false} ParseBodyFollowsTable(body: seq<byte>, body': seq<byte>, g: nat, p: seq<nat>)
    requires ParseBody(body).Ok?
    requires |body'| == |body| && g <= |body| && body[g..] == body'[g..]
    requires forall j :: 0 <= j < FrameCount(body) ==> TableEntry(body, BodyHeaderLength, j) >= OuterHeaderLength + g
    requires |body'| >= BodyHeaderLength && FrameCount(body') == |p| && BodyHeaderLength + 4 * |p| <= |body'|
    requires forall i :: 0 <= i < |p| ==> p[i] < FrameCount(body)
    requires forall i :: 0 <= i < |p| ==> TableEntry(body', BodyHeaderLength, i) == TableEntry(body, BodyHeaderLength, p[i])
    ensures ParseBody(body') == Ok(seq(|p|, i requires 0 <= i < |p| => ParseBody(body).value[p[i]]))
  {
    var frames := ParseBody(body).value;
    var want := seq(|p|, i requires 0 <= i < |p| => frames[p[i]]);
    forall i | 0 <= i < |p|
      ensures FrameAt(body', TableEntry(body', BodyHeaderLength, i)) == Ok(want[i])
    {
      var entry := TableEntry(body, BodyHeaderLength, p[i]);
      FrameAtSameTail(body, body', g, entry);
    }
    assert BodyWellFormed(body');
    var r := ParseBody(body');
    assert forall i :: 0 <= i < |p| ==> r.value[i] == want[i];
    assert r.value == want;
  }
}

=== FILE: names.dfy ===
/** The fixed-width name fields of the index and archive records.

    A name field is 13 bytes. It is accepted only if the whole field is valid
    UTF-8 (a `LoadingError` otherwise); the trailing NUL padding is then
    stripped, and index keys are additionally upper-cased. A name is kept
    as the bytes of its UTF-8 encoding, so equality of names is equality of
    strings. Because a NUL byte can only stand for U+0000 in valid UTF-8,
    stripping trailing NUL characters is stripping trailing zero bytes. */
module Names {
  import opened Bytes

  /** A name, as the bytes of its UTF-8 encoding: resource keys, asset names
      and the names given to palettes and bitmaps alike. */
  type Name = seq<byte>

  /** A UTF-8 continuation byte, 10xxxxxx. */
  predicate Continuation(b: byte) {
    0x80 <= b <= 0xBF
  }

  /** The length of the well-formed UTF-8 sequence that starts b, or 0 when
      b does not start with one. The byte ranges are those of Table 3-7 of
      the Unicode Standard (no overlong forms, no surrogates, nothing above
      U+10FFFF). */
  function SequenceLength(b: seq<byte>): (n: nat)
    ensures n <= |b| && (b == [] ==> n == 0)
  {
    if b == [] then 0
    else if b[0] <= 0x7F then 1
    else if 0xC2 <= b[0] <= 0xDF then
      if |b| >= 2 && Continuation(b[1]) then 2 else 0
    else if b[0] == 0xE0 then
      if |b| >= 3 && 0xA0 <= b[1] <= 0xBF && Continuation(b[2]) then 3 else 0
    else if 0xE1 <= b[0] <= 0xEC || 0xEE <= b[0] <= 0xEF then
      if |b| >= 3 && Continuation(b[1]) && Continuation(b[2]) then 3 else 0
    else if b[0] == 0xED then
      if |b| >= 3 && 0x80 <= b[1] <= 0x9F && Continuation(b[2]) then 3 else 0
    else if b[0] == 0xF0 then
      if |b| >= 4 && 0x90 <= b[1] <= 0xBF && Continuation(b[2]) && Continuation(b[3]) then 4 else 0
    else if 0xF1 <= b[0] <= 0xF3 then
      if |b| >= 4 && Continuation(b[1]) && Continuation(b[2]) && Continuation(b[3]) then 4 else 0
    else if b[0] == 0xF4 then
      if |b| >= 4 && 0x80 <= b[1] <= 0x8F && Continuation(b[2]) && Continuation(b[3]) then 4 else 0
    else 0
  }

  /** b is a concatenation of well-formed UTF-8 sequences. */
  predicate ValidUtf8(b: seq<byte>)
    decreases |b|
  {
    b == [] || (SequenceLength(b) > 0 && ValidUtf8(b[SequenceLength(b)..]))
  }

  predicate IsAscii(b: seq<byte>) {
    forall i :: 0 <= i < |b| ==> b[i] <= 0x7F
  }

  /** Every ASCII byte string is valid UTF-8. */
  lemma {:induction false} AsciiIsValidUtf8(b: seq<byte>)
    requires IsAscii(b)
    ensures ValidUtf8(b)
  {
    if b != [] {
      assert SequenceLength(b) == 1;
      AsciiIsValidUtf8(b[1..]);
    }
  }

  /** b with its trailing zero bytes removed; interior zero bytes are kept. */
  function TrimNul(b: seq<byte>): (r: seq<byte>)
    ensures |r| <= |b|
  {
    if b != [] && b[|b| - 1] == 0 then TrimNul(b[..|b| - 1]) else b
  }

  /** Trimming keeps a prefix, drops only zero bytes, and leaves no zero at
      the end. */
  lemma {:induction false} TrimNulSpec(b: seq<byte>)
    ensures TrimNul(b) == b[..|TrimNul(b)|]
    ensures forall i :: |TrimNul(b)| <= i < |b| ==> b[i] == 0
    ensures TrimNul(b) == [] || TrimNul(b)[|TrimNul(b)| - 1] != 0
    decreases |b|
  {
    if b != [] && b[|b| - 1] == 0 {
      TrimNulSpec(b[..|b| - 1]);
    }
  }

  /** The 26 letters of the ASCII alphabet, in both cases. */
  const LowerLetters: string := "abcdefghijklmnopqrstuvwxyz"
  const UpperLetters: string := "ABCDEFGHIJKLMNOPQRSTUVWXYZ"

  /** c is the code of a lower-case ASCII letter. */
  predicate IsLowerLetter(c: byte) {
    exists k :: 0 <= k < |LowerLetters| && c == LowerLetters[k] as int
  }

  /** c and d are the same byte, or the two cases of one ASCII letter. */
  predicate SameIgnoringCase(c: byte, d: byte) {
    || c == d
    || exists k :: 0 <= k < |LowerLetters| &&
         ((c == LowerLetters[k] as int && d == UpperLetters[k] as int) ||
          (c == UpperLetters[k] as int && d == LowerLetters[k] as int))
  }

  /** x and y are equal up to the case of their ASCII letters. */
  predicate EqualIgnoringCase(x: seq<byte>, y: seq<byte>) {
    |x| == |y| && forall i :: 0 <= i < |x| ==> SameIgnoringCase(x[i], y[i])
  }

  predicate HasNoLowerLetter(b: seq<byte>) {
    forall i :: 0 <= i < |b| ==> !IsLowerLetter(b[i])
  }

  function UpperByte(c: byte): byte {
    if 'a' as int <= c <= 'z' as int then c - 0x20 else c
  }

  /** b with the ASCII letters a-z replaced by A-Z and every other byte kept. */
  function AsciiUpper(b: seq<byte>): (r: seq<byte>)
    ensures |r| == |b|
  {
    seq(|b|, i requires 0 <= i < |b| => UpperByte(b[i]))
  }

  /** The k-th letter of the alphabet has code 0x61 + k in lower case and
      0x41 + k in upper case. */
  lemma {:induction false} LetterCodes(k: nat)
    requires k < |LowerLetters|
    ensures |UpperLetters| == |LowerLetters| == 26
    ensures LowerLetters[k] as int == 0x61 + k && UpperLetters[k] as int == 0x41 + k
  {
  }

  /** The letter tables describe the same bytes as the code ranges. */
  lemma {:induction false} LetterRanges(c: byte, d: byte)
    ensures IsLowerLetter(c) <==> 0x61 <= c <= 0x7A
    ensures SameIgnoringCase(c, d) <==>
              c == d || (0x61 <= c <= 0x7A && d == c - 0x20) || (0x61 <= d <= 0x7A && c == d - 0x20)
  {
    if 0x61 <= c <= 0x7A {
      LetterCodes(c - 0x61);
    }
    if 0x61 <= d <= 0x7A {
      LetterCodes(d - 0x61);
    }
    forall k | 0 <= k < |LowerLetters| {
      LetterCodes(k);
    }
  }

  /** Upper-casing a byte leaves no lower-case letter and changes at most its case;
      two bytes upper-case alike exactly when they are equal ignoring case. */
  lemma {:induction false} UpperByteSpec(c: byte, d: byte)
    ensures !IsLowerLetter(UpperByte(c)) && SameIgnoringCase(c, UpperByte(c))
    ensures UpperByte(c) == UpperByte(d) <==> SameIgnoringCase(c, d)
  {
    LetterRanges(c, d);
    LetterRanges(c, UpperByte(c));
    LetterRanges(UpperByte(c), UpperByte(c));
  }

  /** The upper-cased name has no lower-case ASCII letter and equals the name
      ignoring ASCII case. */
  lemma {:induction false} AsciiUpperSpec(b: seq<byte>)
    ensures HasNoLowerLetter(AsciiUpper(b))
    ensures EqualIgnoringCase(b, AsciiUpper(b))
  {
    forall i | 0 <= i < |b|
      ensures !IsLowerLetter(AsciiUpper(b)[i]) && SameIgnoringCase(b[i], AsciiUpper(b)[i])
    {
      UpperByteSpec(b[i], b[i]);
    }
  }

  /** Those two properties determine the upper-cased name. */
  lemma {:induction false} AsciiUpperUnique(b: seq<byte>, r: seq<byte>)
    requires EqualIgnoringCase(b, r) && HasNoLowerLetter(r)
    ensures r == AsciiUpper(b)
  {
    forall i | 0 <= i < |b|
      ensures r[i] == AsciiUpper(b)[i]
    {
      LetterRanges(b[i], r[i]);
      LetterRanges(r[i], r[i]);
    }
  }

  /** Two names upper-case alike exactly when they are equal ignoring ASCII case. */
  lemma {:induction false} AsciiUpperMatches(x: seq<byte>, y: seq<byte>)
    ensures AsciiUpper(x) == AsciiUpper(y) <==> EqualIgnoringCase(x, y)
  {
    if AsciiUpper(x) == AsciiUpper(y) {
      forall i | 0 <= i < |x|
        ensures SameIgnoringCase(x[i], y[i])
      {
        assert AsciiUpper(x)[i] == AsciiUpper(y)[i];
        UpperByteSpec(x[i], y[i]);
      }
    }
    if EqualIgnoringCase(x, y) {
      forall i | 0 <= i < |x|
        ensures AsciiUpper(x)[i] == AsciiUpper(y)[i]
      {
        UpperByteSpec(x[i], y[i]);
      }
    }
  }

  /** Upper-casing twice is upper-casing once. */
  lemma {:induction false} AsciiUpperIdempotent(b: seq<byte>)
    ensures AsciiUpper(AsciiUpper(b)) == AsciiUpper(b)
  {
    var r := AsciiUpper(b);
    AsciiUpperSpec(b);
    forall i | 0 <= i < |r|
      ensures SameIgnoringCase(r[i], r[i])
    {
    }
    AsciiUpperUnique(r, r);
  }
}

=== FILE: resource.dfy ===
/** The resource map: the index of the asset archives and the store of the
    assets extracted from them (`TIM3ResourceMap` in src/resource.rs).

    Index file layout, little-endian throughout:
      u32 magic 0x07040100 | u16 record count |
      per record: 13-byte NUL-padded name | u16 sub-record count |
                  per sub-record: u32 name hash (discarded) | u32 offset
    Archive record layout, at an offset taken from the index:
      13-byte NUL-padded name | u16 payload size | payload */
module Resource {
  import opened Wrappers
  import opened Bytes
  import opened Streams
  import opened Names

  /** The index (archive name to record offsets, in file order) and the
      store (asset name to payload) of one resource map. */
  datatype ResourceMap = ResourceMap(offsets: map<Name, seq<nat>>, files: map<Name, seq<byte>>)

  /** One record read from an archive. */
  datatype Entry = Entry(name: Name, payload: seq<byte>)

  /** The store after an extraction, with how the extraction ended. Records
      stored before a failure stay stored. */
  datatype Extraction = Extraction(resources: ResourceMap, outcome: Outcome)

  const IndexMagic: nat := 0x0704_0100
  const NameFieldLength: nat := 13
  /** The name field followed by the u16 size or count after it. */
  const RecordHeaderLength: nat := 15
  const SubRecordLength: nat := 8

  const BadIndexMagicMessage := "Invalid magic ID for TIM3ResourceMap"
  const Utf8Message := "invalid utf-8 sequence"
  const NoRecordMessage := "No record in resource map found"

  /** Decodes a name field: the whole field must be valid UTF-8, and then
      its trailing NUL padding is dropped. */
  function DecodeName(field: seq<byte>): (r: Result<Name>)
    ensures r.Ok? <==> ValidUtf8(field)
    ensures r.Ok? ==> r.value == TrimNul(field)
    ensures r.Err? ==> r.error == LoadingError(Utf8Message)
  {
    if ValidUtf8(field) then Ok(TrimNul(field)) else Err(LoadingError(Utf8Message))
  }

  /** Parses an index file. The magic number is checked before anything
      else is read; the store of the result is always empty. */
  function ParseIndex(data: seq<byte>): (r: Result<ResourceMap>)
    ensures r.Ok? ==> |data| >= 6 && LittleEndian(data[..4]) == IndexMagic
    ensures r.Ok? ==> r.value.files == map[]
    ensures r.Ok? ==> |r.value.offsets| <= LittleEndian(data[4..6])
    ensures |data| >= 4 && LittleEndian(data[..4]) != IndexMagic ==>
              r == Err(LoadingError(BadIndexMagicMessage))
    ensures |data| < 6 ==> r.Err?
  {
    var magic :- ReadLE(Stream(data, 0), 4);
    if magic.0 != IndexMagic then Err(LoadingError(BadIndexMagicMessage))
    else
      var count :- ReadLE(magic.1, 2);
      var records :- ReadRecords(ReadRecord, count.1, count.0, map[]);
      Ok(ResourceMap(records.0, map[]))
  }

  /** Reads one record (its key and offset list) and the cursor after it. */
  type RecordReader = Stream -> Result<((Name, seq<nat>), Stream)>

  /** Reads n index records in order with `read` into acc; a later record
      whose key is already present replaces the earlier offset list. The
      index loader reads with `ReadRecord`. */
  function ReadRecords(read: RecordReader, s: Stream, n: nat, acc: map<Name, seq<nat>>)
    : (r: Result<(map<Name, seq<nat>>, Stream)>)
    ensures r.Ok? ==> acc.Keys <= r.value.0.Keys && |r.value.0| <= |acc| + n
    decreases n
  {
    if n == 0 then Ok((acc, s))
    else
      var record :- read(s);
      var acc' := acc[record.0.0 := record.0.1];
      assert acc'.Keys == acc.Keys + {record.0.0};
      ReadRecords(read, record.1, n - 1, acc')
  }

  /** Reads one index record: its key (the name upper-cased) and its offsets.
      It fails with the UTF-8 error when the whole name field is there but
      not valid UTF-8, and with a short read when the record is cut off. */
  function ReadRecord(s: Stream): (r: Result<((Name, seq<nat>), Stream)>)
    ensures r.Ok? <==>
              && s.pos + RecordHeaderLength <= |s.data|
              && ValidUtf8(s.data[s.pos..s.pos + NameFieldLength])
              && s.pos + RecordHeaderLength
                 + 8 * LittleEndian(s.data[s.pos + NameFieldLength..s.pos + RecordHeaderLength]) <= |s.data|
    ensures r.Ok? ==> r.value.0.0 == AsciiUpper(TrimNul(s.data[s.pos..s.pos + NameFieldLength]))
    ensures r.Ok? ==>
              && |r.value.0.1| == LittleEndian(s.data[s.pos + NameFieldLength..s.pos + RecordHeaderLength])
              && r.value.1 == Seek(s, s.pos + RecordHeaderLength + 8 * |r.value.0.1|)
    ensures r.Err? ==>
              r.error == if s.pos + NameFieldLength <= |s.data| && !ValidUtf8(s.data[s.pos..s.pos + NameFieldLength])
                         then LoadingError(Utf8Message) else LoadingError(ShortReadMessage)
  {
    var field :- ReadBytes(s, NameFieldLength);
    var name :- DecodeName(field.0);
    var count :- ReadLE(field.1, 2);
    var offsets :- ReadOffsets(count.1, count.0);
    Ok(((AsciiUpper(name), offsets.0), offsets.1))
  }

  /** The i-th offset of a record read is the second u32 of its i-th
      sub-record, which starts 15 + 8i bytes into the record. */
  lemma {:induction false} ReadRecordOffsets(s: Stream, i: nat)
    requires ReadRecord(s).Ok? && i < |ReadRecord(s).value.0.1|
    ensures ReadRecord(s).value.0.1[i] ==
              LittleEndian(s.data[s.pos + RecordHeaderLength + 8 * i + 4..s.pos + RecordHeaderLength + 8 * i + 8])
  {
    var count := LittleEndian(s.data[s.pos + NameFieldLength..s.pos + RecordHeaderLength]);
    var t := Seek(s, s.pos + RecordHeaderLength);
    ReadOffsetsValues(t, count, ReadOffsets(t, count).value.0, ReadOffsets(t, count).value.1, i);
  }

  /** Reads n 8-byte sub-records and keeps the offset, the second u32 of
      each; the first, a name hash, is read and discarded. */
  function ReadOffsets(s: Stream, n: nat): (r: Result<(seq<nat>, Stream)>)
    ensures r.Ok? <==> n == 0 || s.pos + 8 * n <= |s.data|
    ensures r.Ok? ==> |r.value.0| == n && r.value.1 == Seek(s, s.pos + 8 * n)
    ensures r.Err? ==> r.error == LoadingError(ShortReadMessage)
    decreases n
  {
    if n == 0 then Ok(([], s))
    else
      var hash :- ReadLE(s, 4);
      var offset :- ReadLE(hash.1, 4);
      var rest :- ReadOffsets(offset.1, n - 1);
      Ok(([offset.0] + rest.0, rest.1))
  }

  /** The i-th offset read is the second u32 of the i-th sub-record. */
  lemma {:induction false} ReadOffsetsValues(s: Stream, n: nat, offsets: seq<nat>, end: Stream, i: nat)
    requires ReadOffsets(s, n) == Ok((offsets, end)) && i < n
    ensures offsets[i] == LittleEndian(s.data[s.pos + 8 * i + 4..s.pos + 8 * i + 8])
    decreases n
  {
    if i > 0 {
      ReadOffsetsValues(Seek(s, s.pos + 8), n - 1, offsets[1..], end, i - 1);
    }
  }

  /** Reads the archive record at an offset: its name (padding dropped, case
      kept) and its payload under the given reading of the size field. */
  function ReadEntry(archive: seq<byte>, offset: nat, read: PayloadRead): (r: Result<Entry>)
    ensures r.Ok? <==>
              && offset + RecordHeaderLength <= |archive|
              && ValidUtf8(archive[offset..offset + NameFieldLength])
              && (read == DeclaredLength ==>
                    offset + RecordHeaderLength
                    + LittleEndian(archive[offset + NameFieldLength..offset + RecordHeaderLength]) <= |archive|)
    ensures r.Ok? ==> r.value.name == TrimNul(archive[offset..offset + NameFieldLength])
    ensures r.Ok? && read == WithCapacity ==> r.value.payload == []
    ensures r.Ok? && read == DeclaredLength ==>
              r.value.payload ==
                archive[offset + RecordHeaderLength..offset + RecordHeaderLength
                        + LittleEndian(archive[offset + NameFieldLength..offset + RecordHeaderLength])]
    ensures r.Err? ==>
              r.error == if offset + NameFieldLength <= |archive| && !ValidUtf8(archive[offset..offset + NameFieldLength])
                         then LoadingError(Utf8Message) else LoadingError(ShortReadMessage)
  {
    var s := Seek(Stream(archive, 0), offset);
    var field :- ReadBytes(s, NameFieldLength);
    var name :- DecodeName(field.0);
    var size :- ReadLE(field.1, 2);
    var payload :- ReadPayload(size.1, size.0, read);
    Ok(Entry(name, payload.0))
  }

  /** Reads the records at the given offsets in order, inserting each into
      files and overwriting any earlier payload under the same name; stops
      at the first record that cannot be read, keeping what was inserted. */
  function StoreRecords(files: map<Name, seq<byte>>, archive: seq<byte>, offsets: seq<nat>, read: PayloadRead)
    : (r: (map<Name, seq<byte>>, Outcome))
    ensures files.Keys <= r.0.Keys
    ensures read == WithCapacity ==>
              forall k :: k in r.0 ==> r.0[k] == [] || (k in files && r.0[k] == files[k])
    decreases |offsets|
  {
    if offsets == [] then (files, Pass)
    else match ReadEntry(archive, offsets[0], read)
      case Err(e) => (files, Fail(e))
      case Ok(entry) => StoreRecords(files[entry.name := entry.payload], archive, offsets[1..], read)
  }

  /** Extracts the records of the archive called name into the store. The
      name is upper-cased before it is looked up in the index, which itself
      is never changed. `WithCapacity` is the code as written. */
  function AddArchive(rm: ResourceMap, name: Name, archive: seq<byte>, read: PayloadRead): (r: Extraction)
    ensures r.resources.offsets == rm.offsets
    ensures rm.files.Keys <= r.resources.files.Keys
    ensures AsciiUpper(name) !in rm.offsets ==>
              r == Extraction(rm, Fail(LoadingError(NoRecordMessage)))
    ensures read == WithCapacity ==>
              forall k :: k in r.resources.files ==>
                r.resources.files[k] == [] || (k in rm.files && r.resources.files[k] == rm.files[k])
  {
    var key := AsciiUpper(name);
    if key !in rm.offsets then Extraction(rm, Fail(LoadingError(NoRecordMessage)))
    else
      var (files, outcome) := StoreRecords(rm.files, archive, rm.offsets[key], read);
      Extraction(rm.(files := files), outcome)
  }

  /** The payload stored under exactly this name, if any. */
  function Get(rm: ResourceMap, key: Name): (r: Option<seq<byte>>)
    ensures r.Some? <==> key in rm.files
    ensures r.Some? ==> r.value == rm.files[key]
  {
    if key in rm.files then Some(rm.files[key]) else None
  }
}

=== FILE: resource_proofs.dfy ===
/** Properties of the resource map, stated against an encoder of the index
    and archive layouts and against a reference fold of map insertions.

    The reference: inserting a sequence of (key, value) pairs into a map in
    order, a later pair overwriting an earlier one under the same key. The
    index parser and the archive extraction are both shown to be such folds
    over the records of the file, in file order. */
module ResourceProofs {
  import opened Wrappers
  import opened Bytes
  import opened Streams
  import opened Names
  import opened Resource

  // ---------------------------------------------------------------------
  // The reference fold

  /** m after inserting each pair of kvs in order. */
  function InsertAll<K, V>(m: map<K, V>, kvs: seq<(K, V)>): map<K, V>
    decreases |kvs|
  {
    if kvs == [] then m else InsertAll(m[kvs[0].0 := kvs[0].1], kvs[1..])
  }

  /** A key is present after the fold exactly when it was before or some pair carries it. */
  lemma {:induction false} InsertAllKeys<K, V>(m: map<K, V>, kvs: seq<(K, V)>, k: K)
    ensures k in InsertAll(m, kvs) <==> k in m || exists i :: 0 <= i < |kvs| && kvs[i].0 == k
    decreases |kvs|
  {
    if kvs != [] {
      InsertAllKeys(m[kvs[0].0 := kvs[0].1], kvs[1..], k);
      if exists i :: 0 <= i < |kvs[1..]| && kvs[1..][i].0 == k {
        var i :| 0 <= i < |kvs[1..]| && kvs[1..][i].0 == k;
        assert kvs[i + 1].0 == k;
      }
      if exists i :: 0 <= i < |kvs| && kvs[i].0 == k {
        var i :| 0 <= i < |kvs| && kvs[i].0 == k;
        if i > 0 {
          assert kvs[1..][i - 1].0 == k;
        }
      }
    }
  }

  /** The value under a key is the value of the last pair that carries it. */
  lemma {:induction false} InsertAllLastWins<K, V>(m: map<K, V>, kvs: seq<(K, V)>, i: nat)
    requires i < |kvs|
    requires forall j :: i < j < |kvs| ==> kvs[j].0 != kvs[i].0
    ensures kvs[i].0 in InsertAll(m, kvs) && InsertAll(m, kvs)[kvs[i].0] == kvs[i].1
    decreases |kvs|
  {
    var m' := m[kvs[0].0 := kvs[0].1];
    if i == 0 {
      InsertAllUntouched(m', kvs[1..], kvs[0].0);
    } else {
      InsertAllLastWins(m', kvs[1..], i - 1);
    }
  }

  /** A key no pair carries keeps its presence and value. */
  lemma {:induction false} InsertAllUntouched<K, V>(m: map<K, V>, kvs: seq<(K, V)>, k: K)
    requires forall j :: 0 <= j < |kvs| ==> kvs[j].0 != k
    ensures k in InsertAll(m, kvs) <==> k in m
    ensures k in m ==> InsertAll(m, kvs)[k] == m[k]
    decreases |kvs|
  {
    if kvs != [] {
      InsertAllUntouched(m[kvs[0].0 := kvs[0].1], kvs[1..], k);
    }
  }

  // ---------------------------------------------------------------------
  // The index file

  /** One 8-byte sub-record of an index record. */
  datatype SubRecord = SubRecord(hash: nat, offset: nat)

  /** One index record: its raw 13-byte name field and its sub-records. */
  datatype IndexRecord = IndexRecord(field: seq<byte>, subRecords: seq<SubRecord>)

  predicate SubRecordsFit(es: seq<SubRecord>) {
    forall i :: 0 <= i < |es| ==> es[i].hash < U32Bound && es[i].offset < U32Bound
  }

  /** The record can be written: a valid 13-byte name and u16/u32 fields in range. */
  predicate IndexRecordFits(r: IndexRecord) {
    && |r.field| == NameFieldLength
    && ValidUtf8(r.field)
    && |r.subRecords| < U16Bound
    && SubRecordsFit(r.subRecords)
  }

  predicate IndexRecordsFit(rs: seq<IndexRecord>) {
    forall i :: 0 <= i < |rs| ==> IndexRecordFits(rs[i])
  }

  function EncodeSubRecords(es: seq<SubRecord>): (b: seq<byte>)
    requires SubRecordsFit(es)
    ensures |b| == 8 * |es|
  {
    if es == [] then []
    else EncodeLittleEndian(es[0].hash, 4) + EncodeLittleEndian(es[0].offset, 4) + EncodeSubRecords(es[1..])
  }

  function EncodeIndexRecord(r: IndexRecord): seq<byte>
    requires IndexRecordFits(r)
  {
    r.field + EncodeLittleEndian(|r.subRecords|, 2) + EncodeSubRecords(r.subRecords)
  }

  function EncodeIndexRecords(rs: seq<IndexRecord>): seq<byte>
    requires IndexRecordsFit(rs)
  {
    if rs == [] then [] else EncodeIndexRecord(rs[0]) + EncodeIndexRecords(rs[1..])
  }

  /** The magic number and a record count of n. */
  function IndexHeader(n: nat): (b: seq<byte>)
    requires n < U16Bound
    ensures |b| == 6
  {
    EncodeLittleEndian(IndexMagic, 4) + EncodeLittleEndian(n, 2)
  }

  /** The index file that lists the given records. */
  function EncodeIndex(rs: seq<IndexRecord>): seq<byte>
    requires |rs| < U16Bound && IndexRecordsFit(rs)
  {
    IndexHeader(|rs|) + EncodeIndexRecords(rs)
  }

  /** The key of a record: its name without padding, upper-cased. */
  function KeyOf(r: IndexRecord): Name {
    AsciiUpper(TrimNul(r.field))
  }

  /** The offsets of the sub-records, in order, without the hashes. */
  function OffsetsOf(es: seq<SubRecord>): seq<nat> {
    seq(|es|, i requires 0 <= i < |es| => es[i].offset)
  }

  function IndexPairs(rs: seq<IndexRecord>): seq<(Name, seq<nat>)> {
    seq(|rs|, i requires 0 <= i < |rs| => (KeyOf(rs[i]), OffsetsOf(rs[i].subRecords)))
  }

  /** The index the records describe: every key with the offsets of the
      last record that has it. */
  function IndexOf(rs: seq<IndexRecord>): map<Name, seq<nat>> {
    InsertAll(map[], IndexPairs(rs))
  }

  lemma {:induction false} ReadOffsetsRoundTrip(s: Stream, es: seq<SubRecord>, n: nat)
    requires SubRecordsFit(es) && n == |es|
    requires At(s.data, s.pos, EncodeSubRecords(es))
    ensures ReadOffsets(s, n) == Ok((OffsetsOf(es), Seek(s, s.pos + 8 * n)))
    decreases n
  {
    if es != [] {
      var next := SubRecordsTail(s, es, n);
      ReadOffsetsRoundTrip(next, es[1..], n - 1);
      SubRecordCons(s, es, n, next, OffsetsOf(es[1..]), Seek(next, next.pos + 8 * (n - 1)));
      OffsetsOfCons(es);
    } else {
      assert OffsetsOf(es) == [];
    }
  }

  /** Where the sub-records after the first lie. */
  lemma {:induction false} SubRecordsTail(s: Stream, es: seq<SubRecord>, n: nat) returns (next: Stream)
    requires es != [] && SubRecordsFit(es) && n == |es|
    requires At(s.data, s.pos, EncodeSubRecords(es))
    ensures next == Seek(s, s.pos + 8)
    ensures SubRecordsFit(es[1..]) && n - 1 == |es[1..]| && At(next.data, next.pos, EncodeSubRecords(es[1..]))
    ensures Seek(next, next.pos + 8 * (n - 1)) == Seek(s, s.pos + 8 * n)
  {
    next := SubRecordStep(s, es);
  }

  /** Reading the first encoded sub-record and then the rest is reading them all. */
  lemma {:induction false} SubRecordCons(s: Stream, es: seq<SubRecord>, n: nat, next: Stream, rest: seq<nat>, end: Stream)
    requires es != [] && SubRecordsFit(es) && n == |es|
    requires At(s.data, s.pos, EncodeSubRecords(es))
    requires next == Seek(s, s.pos + 8)
    requires ReadOffsets(next, n - 1) == Ok((rest, end))
    ensures ReadOffsets(s, n) == Ok(([es[0].offset] + rest, end))
  {
    var next' := SubRecordStep(s, es);
    ReadOffsetsCons(s, n, es[0].hash, es[0].offset, next, rest, end);
  }

  /** The two reads of the first encoded sub-record, and where the rest lie. */
  lemma {:induction false} SubRecordStep(s: Stream, es: seq<SubRecord>) returns (next: Stream)
    requires es != [] && SubRecordsFit(es)
    requires At(s.data, s.pos, EncodeSubRecords(es))
    ensures ReadLE(s, 4) == Ok((es[0].hash, Seek(s, s.pos + 4)))
    ensures ReadLE(Seek(s, s.pos + 4), 4) == Ok((es[0].offset, next))
    ensures SubRecordsFit(es[1..]) && At(next.data, next.pos, EncodeSubRecords(es[1..]))
    ensures Seek(next, next.pos + 8 * (|es| - 1)) == Seek(s, s.pos + 8 * |es|)
  {
    var hash := EncodeLittleEndian(es[0].hash, 4);
    var offset := EncodeLittleEndian(es[0].offset, 4);
    AtConcat(s.data, s.pos, hash + offset, EncodeSubRecords(es[1..]));
    AtConcat(s.data, s.pos, hash, offset);
    next := Seek(s, s.pos + 8);
    ReadLEAt(s, 4, es[0].hash);
    ReadLEAt(Seek(s, s.pos + 4), 4, es[0].offset);
  }

  /** Reading n > 0 sub-records is reading one and then n - 1 more. */
  lemma {:induction false} ReadOffsetsCons(s: Stream, n: nat, hash: nat, offset: nat, next: Stream, rest: seq<nat>, end: Stream)
    requires n > 0
    requires ReadLE(s, 4) == Ok((hash, Seek(s, s.pos + 4)))
    requires ReadLE(Seek(s, s.pos + 4), 4) == Ok((offset, next))
    requires ReadOffsets(next, n - 1) == Ok((rest, end))
    ensures ReadOffsets(s, n) == Ok(([offset] + rest, end))
  {
  }

  lemma {:induction false} OffsetsOfCons(es: seq<SubRecord>)
    requires es != []
    ensures OffsetsOf(es) == [es[0].offset] + OffsetsOf(es[1..])
  {
  }

  lemma {:induction false} ReadRecordRoundTrip(s: Stream, r: IndexRecord)
    requires IndexRecordFits(r)
    requires At(s.data, s.pos, EncodeIndexRecord(r))
    ensures ReadRecord(s) == Ok(((KeyOf(r), OffsetsOf(r.subRecords)), Seek(s, s.pos + |EncodeIndexRecord(r)|)))
  {
    ReadNameStep(s, r);
    ReadCountStep(s, r);
    ReadOffsetsStep(s, r);
    assert DecodeName(r.field) == Ok(TrimNul(r.field));
  }

  /** The first read of an index record: its name field. */
  lemma {:induction false} ReadNameStep(s: Stream, r: IndexRecord)
    requires IndexRecordFits(r)
    requires At(s.data, s.pos, EncodeIndexRecord(r))
    ensures ReadBytes(s, NameFieldLength) == Ok((r.field, Seek(s, s.pos + NameFieldLength)))
  {
    RecordParts(s.data, s.pos, r);
    ReadBytesAt(s, r.field);
  }

  /** The second read of an index record: its sub-record count. */
  lemma {:induction false} ReadCountStep(s: Stream, r: IndexRecord)
    requires IndexRecordFits(r)
    requires At(s.data, s.pos, EncodeIndexRecord(r))
    ensures ReadLE(Seek(s, s.pos + NameFieldLength), 2) == Ok((|r.subRecords|, Seek(s, s.pos + RecordHeaderLength)))
  {
    RecordParts(s.data, s.pos, r);
    ReadLEAt(Seek(s, s.pos + NameFieldLength), 2, |r.subRecords|);
  }

  /** The third read of an index record: its offsets. */
  lemma {:induction false} ReadOffsetsStep(s: Stream, r: IndexRecord)
    requires IndexRecordFits(r)
    requires At(s.data, s.pos, EncodeIndexRecord(r))
    ensures ReadOffsets(Seek(s, s.pos + RecordHeaderLength), |r.subRecords|) ==
              Ok((OffsetsOf(r.subRecords), Seek(s, s.pos + |EncodeIndexRecord(r)|)))
  {
    RecordParts(s.data, s.pos, r);
    ReadOffsetsRoundTrip(Seek(s, s.pos + RecordHeaderLength), r.subRecords, |r.subRecords|);
    SeekTwice(s, RecordHeaderLength, 8 * |r.subRecords|, |EncodeIndexRecord(r)|);
  }

  /** Where the parts of an encoded index record lie. */
  lemma {:induction false} RecordParts(data: seq<byte>, p: nat, r: IndexRecord)
    requires IndexRecordFits(r)
    requires At(data, p, EncodeIndexRecord(r))
    ensures At(data, p, r.field)
    ensures At(data, p + NameFieldLength, EncodeLittleEndian(|r.subRecords|, 2))
    ensures At(data, p + RecordHeaderLength, EncodeSubRecords(r.subRecords))
    ensures |EncodeIndexRecord(r)| == RecordHeaderLength + 8 * |r.subRecords|
  {
    var count := EncodeLittleEndian(|r.subRecords|, 2);
    AtConcat(data, p, r.field + count, EncodeSubRecords(r.subRecords));
    AtConcat(data, p, r.field, count);
  }

  /** Starting at s, `read` gives the pairs ps one after the other and
      leaves the cursor at end. */
  ghost predicate ReadsPairs(read: RecordReader, s: Stream, ps: seq<(Name, seq<nat>)>, end: Stream)
    decreases |ps|
  {
    if ps == [] then s == end
    else read(s).Ok? && read(s).value.0 == ps[0] && ReadsPairs(read, read(s).value.1, ps[1..], end)
  }

  /** Giving the first pair and then the rest is giving them all. */
  lemma {:induction false} ReadsPairsCons(read: RecordReader, s: Stream, ps: seq<(Name, seq<nat>)>, next: Stream,
                        rest: seq<(Name, seq<nat>)>, restEnd: Stream, end: Stream)
    requires ps != [] && read(s) == Ok((ps[0], next))
    requires ps[1..] == rest && ReadsPairs(read, next, rest, restEnd) && restEnd == end
    ensures ReadsPairs(read, s, ps, end)
  {
  }

  /** Whatever the reader, reading records it gives one after the other is
      the reference fold of what it gives. */
  lemma {:induction false} ReadRecordsFold(read: RecordReader, s: Stream, ps: seq<(Name, seq<nat>)>,
                                            end: Stream, acc: map<Name, seq<nat>>, n: nat)
    requires ReadsPairs(read, s, ps, end) && n == |ps|
    ensures ReadRecords(read, s, n, acc) == Ok((InsertAll(acc, ps), end))
    decreases |ps|
  {
    if ps != [] {
      ReadRecordsFold(read, read(s).value.1, ps[1..], end, acc[ps[0].0 := ps[0].1], n - 1);
    }
  }

  /** Where the first encoded record and the rest lie. */
  lemma {:induction false} RecordsSplit(s: Stream, rs: seq<IndexRecord>)
    requires rs != [] && IndexRecordsFit(rs)
    requires At(s.data, s.pos, EncodeIndexRecords(rs))
    ensures IndexRecordFits(rs[0]) && IndexRecordsFit(rs[1..])
    ensures At(s.data, s.pos, EncodeIndexRecord(rs[0]))
    ensures At(s.data, s.pos + |EncodeIndexRecord(rs[0])|, EncodeIndexRecords(rs[1..]))
    ensures |EncodeIndexRecords(rs)| == |EncodeIndexRecord(rs[0])| + |EncodeIndexRecords(rs[1..])|
  {
    AtConcat(s.data, s.pos, EncodeIndexRecord(rs[0]), EncodeIndexRecords(rs[1..]));
  }

  /** Dropping the first record drops the first pair. */
  lemma {:induction false} IndexPairsTail(rs: seq<IndexRecord>)
    requires rs != []
    ensures IndexPairs(rs)[0] == (KeyOf(rs[0]), OffsetsOf(rs[0].subRecords))
    ensures IndexPairs(rs)[1..] == IndexPairs(rs[1..])
  {
  }

  /** Seeking a bytes on and then b more is seeking a + b on. */
  lemma {:induction false} SeekTwice(s: Stream, a: nat, b: nat, n: nat)
    requires a + b == n
    ensures Seek(Seek(s, s.pos + a), Seek(s, s.pos + a).pos + b) == Seek(s, s.pos + n)
  {
  }

  /** The reader gives back the key, the offsets and the cursor after every
      encoded record it is pointed at. */
  ghost predicate ReadsEncoded(read: RecordReader) {
    forall t: Stream, r: IndexRecord {:trigger At(t.data, t.pos, EncodeIndexRecord(r))} ::
      IndexRecordFits(r) && At(t.data, t.pos, EncodeIndexRecord(r)) ==>
      read(t) == Ok(((KeyOf(r), OffsetsOf(r.subRecords)), Seek(t, t.pos + |EncodeIndexRecord(r)|)))
  }

  /** The index loader's record reader is such a reader. */
  lemma {:induction false} ReadRecordReadsEncoded()
    ensures ReadsEncoded(ReadRecord)
  {
    forall t: Stream, r: IndexRecord | IndexRecordFits(r) && At(t.data, t.pos, EncodeIndexRecord(r))
      ensures ReadRecord(t) == Ok(((KeyOf(r), OffsetsOf(r.subRecords)), Seek(t, t.pos + |EncodeIndexRecord(r)|)))
    {
      ReadRecordRoundTrip(t, r);
    }
  }

  /** One step over the first of the encoded records: what the reader gives
      there, and where the rest lie. */
  lemma {:induction false} EncodedRecordsStep(read: RecordReader, s: Stream, rs: seq<IndexRecord>) returns (next: Stream)
    requires ReadsEncoded(read)
    requires rs != [] && IndexRecordsFit(rs)
    requires At(s.data, s.pos, EncodeIndexRecords(rs))
    ensures read(s) == Ok((IndexPairs(rs)[0], next))
    ensures IndexRecordsFit(rs[1..]) && At(next.data, next.pos, EncodeIndexRecords(rs[1..]))
    ensures Seek(next, next.pos + |EncodeIndexRecords(rs[1..])|) == Seek(s, s.pos + |EncodeIndexRecords(rs)|)
    ensures IndexPairs(rs)[1..] == IndexPairs(rs[1..])
  {
    RecordsSplit(s, rs);
    next := Seek(s, s.pos + |EncodeIndexRecord(rs[0])|);
    IndexPairsTail(rs);
    SeekTwice(s, |EncodeIndexRecord(rs[0])|, |EncodeIndexRecords(rs[1..])|, |EncodeIndexRecords(rs)|);
  }

  /** Such a reader gives the pairs of encoded records one after the other
      and stops right after the last. */
  lemma {:induction false} EncodedRecordsReadAsPairs(read: RecordReader, s: Stream, rs: seq<IndexRecord>, end: Stream)
    requires ReadsEncoded(read)
    requires IndexRecordsFit(rs)
    requires At(s.data, s.pos, EncodeIndexRecords(rs))
    requires end == Seek(s, s.pos + |EncodeIndexRecords(rs)|)
    ensures ReadsPairs(read, s, IndexPairs(rs), end)
    decreases |rs|
  {
    if rs == [] {
      assert IndexPairs(rs) == [];
    } else {
      var next := EncodedRecordsStep(read, s, rs);
      EncodedRecordsReadAsPairs(read, next, rs[1..], end);
      ReadsPairsCons(read, s, IndexPairs(rs), next, IndexPairs(rs[1..]), end, end);
    }
  }

  lemma {:induction false} ReadRecordsRoundTrip(s: Stream, rs: seq<IndexRecord>, acc: map<Name, seq<nat>>)
    requires IndexRecordsFit(rs)
    requires At(s.data, s.pos, EncodeIndexRecords(rs))
    ensures ReadRecords(ReadRecord, s, |rs|, acc) ==
              Ok((InsertAll(acc, IndexPairs(rs)), Seek(s, s.pos + |EncodeIndexRecords(rs)|)))
  {
    ReadRecordReadsEncoded();
    ReadEncodedRecords(ReadRecord, s, rs, acc);
  }

  /** The same for any reader that reads encoded records back. */
  lemma {:induction false} ReadEncodedRecords(read: RecordReader, s: Stream, rs: seq<IndexRecord>, acc: map<Name, seq<nat>>)
    requires ReadsEncoded(read) && IndexRecordsFit(rs)
    requires At(s.data, s.pos, EncodeIndexRecords(rs))
    ensures ReadRecords(read, s, |rs|, acc) ==
              Ok((InsertAll(acc, IndexPairs(rs)), Seek(s, s.pos + |EncodeIndexRecords(rs)|)))
  {
    var ps, end := IndexPairs(rs), Seek(s, s.pos + |EncodeIndexRecords(rs)|);
    assert ReadsPairs(read, s, ps, end) && |ps| == |rs| by {
      EncodedRecordsReadAsPairs(read, s, rs, end);
    }
    ReadRecordsFold(read, s, ps, end, acc, |rs|);
  }

  /** Parsing an index file gives the index its records describe, whatever
      follows them, and an empty store. */
  lemma {:induction false} ParseIndexRoundTrip(rs: seq<IndexRecord>, rest: seq<byte>)
    requires |rs| < U16Bound && IndexRecordsFit(rs)
    ensures ParseIndex(EncodeIndex(rs) + rest) == Ok(ResourceMap(IndexOf(rs), map[]))
  {
    var data := EncodeIndex(rs) + rest;
    var magic := EncodeLittleEndian(IndexMagic, 4);
    var count := EncodeLittleEndian(|rs|, 2);
    assert At(data, 0, EncodeIndex(rs)) by {
      assert data[..|EncodeIndex(rs)|] == EncodeIndex(rs);
    }
    AtConcat(data, 0, magic + count, EncodeIndexRecords(rs));
    AtConcat(data, 0, magic, count);
    ReadLEAt(Stream(data, 0), 4, IndexMagic);
    ReadLEAt(Stream(data, 4), 2, |rs|);
    ReadRecordsRoundTrip(Stream(data, 6), rs, map[]);
  }

  /** Whatever the reader, a record it cannot read after the pairs ps, and
      before the count runs out, ends the loop with that record's error. */
  lemma {:induction false} ReadRecordsFailure(read: RecordReader, s: Stream, ps: seq<(Name, seq<nat>)>,
                                               t: Stream, acc: map<Name, seq<nat>>, n: nat)
    requires ReadsPairs(read, s, ps, t) && |ps| < n && read(t).Err?
    ensures ReadRecords(read, s, n, acc) == Err(read(t).error)
    decreases |ps|
  {
    if ps != [] {
      ReadRecordsFailure(read, read(s).value.1, ps[1..], t, acc[ps[0].0 := ps[0].1], n - 1);
    }
  }

  /** An index file that declares n records but holds only the written
      records rs, followed by bytes that do not form a readable record,
      fails with the error of that record. */
  lemma {:induction false} ParseIndexStopsAtRecord(n: nat, rs: seq<IndexRecord>, tail: seq<byte>)
    requires |rs| < n < U16Bound && IndexRecordsFit(rs)
    requires ReadRecord(Stream(IndexHeader(n) + EncodeIndexRecords(rs) + tail, 6 + |EncodeIndexRecords(rs)|)).Err?
    ensures ParseIndex(IndexHeader(n) + EncodeIndexRecords(rs) + tail) ==
              Err(ReadRecord(Stream(IndexHeader(n) + EncodeIndexRecords(rs) + tail, 6 + |EncodeIndexRecords(rs)|)).error)
  {
    var records := EncodeIndexRecords(rs);
    var data := IndexHeader(n) + records + tail;
    var magic := EncodeLittleEndian(IndexMagic, 4);
    var count := EncodeLittleEndian(n, 2);
    assert At(data, 0, IndexHeader(n) + records) by {
      assert data[..6 + |records|] == IndexHeader(n) + records;
    }
    AtConcat(data, 0, magic + count, records);
    AtConcat(data, 0, magic, count);
    ReadLEAt(Stream(data, 0), 4, IndexMagic);
    ReadLEAt(Stream(data, 4), 2, n);
    ReadRecordsStopAt(Stream(data, 6), rs, map[], n);
  }

  /** The index loader's record loop stops at the first record after the
      written ones that it cannot read, with that record's error. */
  lemma {:induction false} ReadRecordsStopAt(s: Stream, rs: seq<IndexRecord>, acc: map<Name, seq<nat>>, n: nat)
    requires IndexRecordsFit(rs) && |rs| < n
    requires At(s.data, s.pos, EncodeIndexRecords(rs))
    requires ReadRecord(Seek(s, s.pos + |EncodeIndexRecords(rs)|)).Err?
    ensures ReadRecords(ReadRecord, s, n, acc) == Err(ReadRecord(Seek(s, s.pos + |EncodeIndexRecords(rs)|)).error)
  {
    ReadRecordReadsEncoded();
    ReadEncodedRecordsFailure(ReadRecord, s, rs, acc, n);
  }

  /** The same for any reader that reads encoded records back. */
  lemma {:induction false} ReadEncodedRecordsFailure(read: RecordReader, s: Stream, rs: seq<IndexRecord>,
                                                      acc: map<Name, seq<nat>>, n: nat)
    requires ReadsEncoded(read) && IndexRecordsFit(rs) && |rs| < n
    requires At(s.data, s.pos, EncodeIndexRecords(rs))
    requires read(Seek(s, s.pos + |EncodeIndexRecords(rs)|)).Err?
    ensures ReadRecords(read, s, n, acc) == Err(read(Seek(s, s.pos + |EncodeIndexRecords(rs)|)).error)
  {
    var ps, t := IndexPairs(rs), Seek(s, s.pos + |EncodeIndexRecords(rs)|);
    assert ReadsPairs(read, s, ps, t) && |ps| < n by {
      EncodedRecordsReadAsPairs(read, s, rs, t);
    }
    ReadRecordsFailure(read, s, ps, t, acc, n);
  }

  /** In particular, the index loader fails on a record within the declared
      count whose name field is not UTF-8, and with a short read on one that
      is cut off. */
  lemma {:induction false} ParseIndexBadRecord(n: nat, rs: seq<IndexRecord>, tail: seq<byte>)
    requires |rs| < n < U16Bound && IndexRecordsFit(rs)
    ensures |tail| >= NameFieldLength && !ValidUtf8(tail[..NameFieldLength]) ==>
              ParseIndex(IndexHeader(n) + EncodeIndexRecords(rs) + tail) == Err(LoadingError(Utf8Message))
    ensures && (|tail| >= NameFieldLength ==> ValidUtf8(tail[..NameFieldLength]))
            && (|tail| < RecordHeaderLength
                || RecordHeaderLength + 8 * LittleEndian(tail[NameFieldLength..RecordHeaderLength]) > |tail|) ==>
              ParseIndex(IndexHeader(n) + EncodeIndexRecords(rs) + tail) == Err(LoadingError(ShortReadMessage))
  {
    var p := 6 + |EncodeIndexRecords(rs)|;
    var data := IndexHeader(n) + EncodeIndexRecords(rs) + tail;
    assert data[p..] == tail;
    ReadRecordOnRest(Stream(data, p), tail);
    if ReadRecord(Stream(data, p)).Err? {
      ParseIndexStopsAtRecord(n, rs, tail);
    }
  }

  /** How a record read fails, in terms of the bytes that remain. */
  lemma {:induction false} ReadRecordOnRest(s: Stream, rest: seq<byte>)
    requires s.pos <= |s.data| && s.data[s.pos..] == rest
    ensures |rest| >= NameFieldLength && !ValidUtf8(rest[..NameFieldLength]) ==>
              ReadRecord(s) == Err(LoadingError(Utf8Message))
    ensures && (|rest| >= NameFieldLength ==> ValidUtf8(rest[..NameFieldLength]))
            && (|rest| < RecordHeaderLength
                || RecordHeaderLength + 8 * LittleEndian(rest[NameFieldLength..RecordHeaderLength]) > |rest|) ==>
              ReadRecord(s) == Err(LoadingError(ShortReadMessage))
  {
    if |rest| >= NameFieldLength {
      assert s.data[s.pos..s.pos + NameFieldLength] == rest[..NameFieldLength];
    }
    if |rest| >= RecordHeaderLength {
      assert s.data[s.pos + NameFieldLength..s.pos + RecordHeaderLength] == rest[NameFieldLength..RecordHeaderLength];
    }
  }

  /** An index file whose first four bytes, read little-endian, are not the
      magic number fails with the magic error, whatever follows. */
  lemma {:induction false} ParseIndexBadMagic(magic: seq<byte>, rest: seq<byte>)
    requires |magic| == 4 && LittleEndian(magic) != IndexMagic
    ensures ParseIndex(magic + rest) == Err(LoadingError(BadIndexMagicMessage))
  {
    assert (magic + rest)[..4] == magic;
  }

  /** A key is in the index exactly when some record has it. */
  lemma {:induction false} IndexKeys(rs: seq<IndexRecord>, k: Name)
    ensures k in IndexOf(rs) <==> exists i :: 0 <= i < |rs| && KeyOf(rs[i]) == k
  {
    InsertAllKeys(map[], IndexPairs(rs), k);
    if exists i :: 0 <= i < |rs| && KeyOf(rs[i]) == k {
      var i :| 0 <= i < |rs| && KeyOf(rs[i]) == k;
      assert IndexPairs(rs)[i].0 == k;
    }
  }

  /** The offsets under a key are those of the last record with that key,
      in sub-record order: a later record replaces an earlier one. */
  lemma {:induction false} IndexLastRecordWins(rs: seq<IndexRecord>, i: nat)
    requires i < |rs|
    requires forall j :: i < j < |rs| ==> KeyOf(rs[j]) != KeyOf(rs[i])
    ensures KeyOf(rs[i]) in IndexOf(rs)
    ensures IndexOf(rs)[KeyOf(rs[i])] == OffsetsOf(rs[i].subRecords)
    ensures |IndexOf(rs)[KeyOf(rs[i])]| == |rs[i].subRecords|
    ensures forall j :: 0 <= j < |rs[i].subRecords| ==> IndexOf(rs)[KeyOf(rs[i])][j] == rs[i].subRecords[j].offset
  {
    var pairs := IndexPairs(rs);
    forall j | i < j < |pairs|
      ensures pairs[j].0 != pairs[i].0
    {
    }
    InsertAllLastWins(map[], pairs, i);
  }

  // ---------------------------------------------------------------------
  // Archives

  /** One archive record as written: its raw 13-byte name field and payload. */
  datatype ArchiveRecord = ArchiveRecord(field: seq<byte>, payload: seq<byte>)

  predicate ArchiveRecordFits(r: ArchiveRecord) {
    |r.field| == NameFieldLength && ValidUtf8(r.field) && |r.payload| < U16Bound
  }

  function EncodeArchiveRecord(r: ArchiveRecord): seq<byte>
    requires ArchiveRecordFits(r)
  {
    r.field + EncodeLittleEndian(|r.payload|, 2) + r.payload
  }

  /** What storing the records inserts: each record's name, padding dropped
      and case kept, with its payload. */
  function RecordPairs(recs: seq<ArchiveRecord>): seq<(Name, seq<byte>)> {
    seq(|recs|, i requires 0 <= i < |recs| => (TrimNul(recs[i].field), recs[i].payload))
  }

  /** What the code as written inserts: each record's name with an empty payload. */
  function EmptiedPairs(recs: seq<ArchiveRecord>): seq<(Name, seq<byte>)> {
    seq(|recs|, i requires 0 <= i < |recs| => (TrimNul(recs[i].field), []))
  }

  function EntryPairs(es: seq<Entry>): seq<(Name, seq<byte>)> {
    seq(|es|, i requires 0 <= i < |es| => (es[i].name, es[i].payload))
  }

  /** A record written at an offset reads back with its name trimmed and,
      with the declared size honoured, its payload; as written, with an
      empty payload. */
  lemma {:induction false} ReadEntryRoundTrip(archive: seq<byte>, offset: nat, r: ArchiveRecord)
    requires ArchiveRecordFits(r)
    requires At(archive, offset, EncodeArchiveRecord(r))
    ensures ReadEntry(archive, offset, DeclaredLength) == Ok(Entry(TrimNul(r.field), r.payload))
    ensures ReadEntry(archive, offset, WithCapacity) == Ok(Entry(TrimNul(r.field), []))
  {
    ArchiveRecordParts(archive, offset, r);
  }

  /** Where the parts of an encoded archive record lie. */
  lemma {:induction false} ArchiveRecordParts(archive: seq<byte>, offset: nat, r: ArchiveRecord)
    requires ArchiveRecordFits(r)
    requires At(archive, offset, EncodeArchiveRecord(r))
    ensures offset + RecordHeaderLength + |r.payload| <= |archive|
    ensures archive[offset..offset + NameFieldLength] == r.field
    ensures LittleEndian(archive[offset + NameFieldLength..offset + RecordHeaderLength]) == |r.payload|
    ensures archive[offset + RecordHeaderLength..offset + RecordHeaderLength + |r.payload|] == r.payload
  {
    var size := EncodeLittleEndian(|r.payload|, 2);
    AtConcat(archive, offset, r.field + size, r.payload);
    AtConcat(archive, offset, r.field, size);
  }

  /** Extraction inserts the records it reads, in offset order, up to the
      first one it cannot read; what it inserted before then stays. */
  lemma {:induction false} ExtractStopsAtFirstFailure(
    files: map<Name, seq<byte>>, archive: seq<byte>, offsets: seq<nat>, read: PayloadRead, es: seq<Entry>)
    requires |es| <= |offsets|
    requires forall i :: 0 <= i < |es| ==> ReadEntry(archive, offsets[i], read) == Ok(es[i])
    requires |es| < |offsets| ==> ReadEntry(archive, offsets[|es|], read).Err?
    ensures StoreRecords(files, archive, offsets, read).0 == InsertAll(files, EntryPairs(es))
    ensures StoreRecords(files, archive, offsets, read).1 ==
              if |es| == |offsets| then Pass else Fail(ReadEntry(archive, offsets[|es|], read).error)
    decreases |offsets|
  {
    if es == [] {
      if offsets != [] {
        var e := ReadEntry(archive, offsets[0], read);
        assert StoreRecords(files, archive, offsets, read) == (files, Fail(e.error));
      }
    } else {
      var files' := files[es[0].name := es[0].payload];
      var offsets', es' := offsets[1..], es[1..];
      assert ReadEntry(archive, offsets[0], read) == Ok(es[0]);
      assert StoreRecords(files, archive, offsets, read) == StoreRecords(files', archive, offsets', read);
      forall i | 0 <= i < |es'|
        ensures ReadEntry(archive, offsets'[i], read) == Ok(es'[i])
      {
        assert offsets'[i] == offsets[i + 1] && es'[i] == es[i + 1];
      }
      ExtractStopsAtFirstFailure(files', archive, offsets', read, es');
      EntryPairsTail(es);
    }
  }

  lemma {:induction false} EntryPairsTail(es: seq<Entry>)
    requires es != []
    ensures EntryPairs(es)[0] == (es[0].name, es[0].payload)
    ensures EntryPairs(es)[1..] == EntryPairs(es[1..])
  {
  }

  /** The same at the level of `add_archive`: the records read before the
      first failure are stored, the index is unchanged, and the outcome
      passes when every record was read and otherwise fails with the error
      of the first record that could not be read. */
  lemma {:induction false} AddArchiveStopsAtFirstFailure(rm: ResourceMap, name: Name, archive: seq<byte>, read: PayloadRead, es: seq<Entry>)
    requires AsciiUpper(name) in rm.offsets
    requires |es| <= |rm.offsets[AsciiUpper(name)]|
    requires forall i :: 0 <= i < |es| ==> ReadEntry(archive, rm.offsets[AsciiUpper(name)][i], read) == Ok(es[i])
    requires |es| < |rm.offsets[AsciiUpper(name)]| ==>
               ReadEntry(archive, rm.offsets[AsciiUpper(name)][|es|], read).Err?
    ensures AddArchive(rm, name, archive, read).resources == rm.(files := InsertAll(rm.files, EntryPairs(es)))
    ensures AddArchive(rm, name, archive, read).outcome ==
              if |es| == |rm.offsets[AsciiUpper(name)]| then Pass
              else Fail(ReadEntry(archive, rm.offsets[AsciiUpper(name)][|es|], read).error)
  {
    ExtractStopsAtFirstFailure(rm.files, archive, rm.offsets[AsciiUpper(name)], read, es);
  }

  /** The records an archive holds at the offsets its index lists. */
  predicate ArchiveHolds(archive: seq<byte>, offsets: seq<nat>, recs: seq<ArchiveRecord>) {
    && |recs| == |offsets|
    && (forall i :: 0 <= i < |recs| ==> ArchiveRecordFits(recs[i]))
    && (forall i :: 0 <= i < |recs| ==> At(archive, offsets[i], EncodeArchiveRecord(recs[i])))
  }

  /** With the declared sizes honoured, extracting an archive that holds the
      given records at its indexed offsets stores every record's payload
      under its name, later records overwriting earlier ones. */
  lemma {:induction false} ExtractRoundTrip(rm: ResourceMap, name: Name, archive: seq<byte>, recs: seq<ArchiveRecord>)
    requires AsciiUpper(name) in rm.offsets
    requires ArchiveHolds(archive, rm.offsets[AsciiUpper(name)], recs)
    ensures AddArchive(rm, name, archive, DeclaredLength) ==
              Extraction(rm.(files := InsertAll(rm.files, RecordPairs(recs))), Pass)
  {
    var offsets := rm.offsets[AsciiUpper(name)];
    var es := seq(|recs|, i requires 0 <= i < |recs| => Entry(TrimNul(recs[i].field), recs[i].payload));
    forall i | 0 <= i < |es|
      ensures ReadEntry(archive, offsets[i], DeclaredLength) == Ok(es[i])
    {
      ReadEntryRoundTrip(archive, offsets[i], recs[i]);
    }
    AddArchiveStopsAtFirstFailure(rm, name, archive, DeclaredLength, es);
    assert EntryPairs(es) == RecordPairs(recs);
  }

  /** As written, the same archive stores every record's name with an
      empty payload, whatever its size field says. */
  lemma {:induction false} ExtractAsWrittenStoresEmpty(rm: ResourceMap, name: Name, archive: seq<byte>, recs: seq<ArchiveRecord>)
    requires AsciiUpper(name) in rm.offsets
    requires ArchiveHolds(archive, rm.offsets[AsciiUpper(name)], recs)
    ensures AddArchive(rm, name, archive, WithCapacity) ==
              Extraction(rm.(files := InsertAll(rm.files, EmptiedPairs(recs))), Pass)
  {
    var offsets := rm.offsets[AsciiUpper(name)];
    var es := seq(|recs|, i requires 0 <= i < |recs| => Entry(TrimNul(recs[i].field), []));
    forall i | 0 <= i < |es|
      ensures ReadEntry(archive, offsets[i], WithCapacity) == Ok(es[i])
    {
      ReadEntryRoundTrip(archive, offsets[i], recs[i]);
    }
    AddArchiveStopsAtFirstFailure(rm, name, archive, WithCapacity, es);
    assert EntryPairs(es) == EmptiedPairs(recs);
  }

  /** After extraction, `get` of a record's exact name returns the payload of
      the last record stored under that name. */
  lemma {:induction false} GetAfterExtract(rm: ResourceMap, name: Name, archive: seq<byte>, recs: seq<ArchiveRecord>, i: nat)
    requires AsciiUpper(name) in rm.offsets
    requires ArchiveHolds(archive, rm.offsets[AsciiUpper(name)], recs)
    requires i < |recs|
    requires forall j :: i < j < |recs| ==> TrimNul(recs[j].field) != TrimNul(recs[i].field)
    ensures Get(AddArchive(rm, name, archive, DeclaredLength).resources, TrimNul(recs[i].field)) == Some(recs[i].payload)
    ensures Get(AddArchive(rm, name, archive, WithCapacity).resources, TrimNul(recs[i].field)) == Some([])
  {
    ExtractRoundTrip(rm, name, archive, recs);
    ExtractAsWrittenStoresEmpty(rm, name, archive, recs);
    var pairs := RecordPairs(recs);
    var emptied := EmptiedPairs(recs);
    forall j | i < j < |recs|
      ensures pairs[j].0 != pairs[i].0 && emptied[j].0 != emptied[i].0
    {
    }
    InsertAllLastWins(rm.files, pairs, i);
    InsertAllLastWins(rm.files, emptied, i);
  }

  /** `get` of a name no record carries answers as before the extraction,
      in both readings. */
  lemma {:induction false} GetUntouchedByExtract(rm: ResourceMap, name: Name, archive: seq<byte>, recs: seq<ArchiveRecord>, key: Name)
    requires AsciiUpper(name) in rm.offsets
    requires ArchiveHolds(archive, rm.offsets[AsciiUpper(name)], recs)
    requires forall j :: 0 <= j < |recs| ==> TrimNul(recs[j].field) != key
    ensures Get(AddArchive(rm, name, archive, DeclaredLength).resources, key) == Get(rm, key)
    ensures Get(AddArchive(rm, name, archive, WithCapacity).resources, key) == Get(rm, key)
  {
    ExtractRoundTrip(rm, name, archive, recs);
    InsertAllUntouched(rm.files, RecordPairs(recs), key);
    ExtractAsWrittenStoresEmpty(rm, name, archive, recs);
    InsertAllUntouched(rm.files, EmptiedPairs(recs), key);
  }

  /** The archive name is matched without regard to ASCII case: two names
      equal up to the case of their ASCII letters add the same archive. */
  lemma {:induction false} AddArchiveCaseInsensitive(rm: ResourceMap, name1: Name, name2: Name, archive: seq<byte>, read: PayloadRead)
    requires EqualIgnoringCase(name1, name2)
    ensures AddArchive(rm, name1, archive, read) == AddArchive(rm, name2, archive, read)
  {
    AsciiUpperMatches(name1, name2);
  }

  /** In particular, adding an archive under its upper-cased name is adding
      it under the name as given. */
  lemma {:induction false} AddArchiveUpperName(rm: ResourceMap, name: Name, archive: seq<byte>, read: PayloadRead)
    ensures AddArchive(rm, AsciiUpper(name), archive, read) == AddArchive(rm, name, archive, read)
  {
    AsciiUpperSpec(name);
    AddArchiveCaseInsensitive(rm, name, AsciiUpper(name), archive, read);
  }
}

=== FILE: streams.dfy ===
/** A seekable byte stream: immutable contents plus a cursor position.

    This stands for both the archive files (opened with seek and read) and
    the in-memory cursors of the decoders. Seeking never fails and may put
    the cursor past the end; a read of n bytes fails when fewer than n bytes
    remain, and a read of zero bytes always succeeds without moving the
    cursor, as an exact read into an empty buffer does. */
module Streams {
  import opened Wrappers
  import opened Bytes

  datatype Stream = Stream(data: seq<byte>, pos: nat)

  const ShortReadMessage := "failed to fill whole buffer"

  /** Moves the cursor to an absolute position, which may lie past the end. */
  function Seek(s: Stream, pos: nat): (r: Stream)
    ensures r.data == s.data && r.pos == pos
  {
    s.(pos := pos)
  }

  /** Reads exactly n bytes at the cursor and advances past them. */
  function ReadBytes(s: Stream, n: nat): (r: Result<(seq<byte>, Stream)>)
    ensures r.Ok? <==> n == 0 || s.pos + n <= |s.data|
    ensures r.Ok? ==> |r.value.0| == n && r.value.1 == Seek(s, s.pos + n)
    ensures r.Ok? && n > 0 ==> r.value.0 == s.data[s.pos..s.pos + n]
    ensures r.Err? ==> r.error == LoadingError(ShortReadMessage)
  {
    if n == 0 then Ok(([], s))
    else if s.pos + n <= |s.data| then Ok((s.data[s.pos..s.pos + n], Seek(s, s.pos + n)))
    else Err(LoadingError(ShortReadMessage))
  }

  /** Reads an n-byte little-endian unsigned integer at the cursor. */
  function ReadLE(s: Stream, n: nat): (r: Result<(nat, Stream)>)
    ensures r.Ok? <==> n == 0 || s.pos + n <= |s.data|
    ensures r.Ok? ==> r.value.0 < Pow256(n) && r.value.1 == Seek(s, s.pos + n)
    ensures r.Ok? && n > 0 ==> r.value.0 == LittleEndian(s.data[s.pos..s.pos + n])
    ensures r.Err? ==> r.error == LoadingError(ShortReadMessage)
  {
    var read :- ReadBytes(s, n);
    Ok((LittleEndian(read.0), read.1))
  }

  /** Reads the single byte at the cursor. */
  function ReadU8(s: Stream): (r: Result<(byte, Stream)>)
    ensures r.Ok? <==> s.pos < |s.data|
    ensures r.Ok? ==> r.value == (s.data[s.pos], Seek(s, s.pos + 1))
    ensures r.Err? ==> r.error == LoadingError(ShortReadMessage)
  {
    var read :- ReadBytes(s, 1);
    Ok((read.0[0], read.1))
  }

  /** Reads an n-byte big-endian unsigned integer at the cursor. */
  function ReadBE(s: Stream, n: nat): (r: Result<(nat, Stream)>)
    ensures r.Ok? <==> n == 0 || s.pos + n <= |s.data|
    ensures r.Ok? ==> r.value.0 < Pow256(n) && r.value.1 == Seek(s, s.pos + n)
    ensures r.Ok? && n > 0 ==> r.value.0 == BigEndian(s.data[s.pos..s.pos + n])
    ensures r.Err? ==> r.error == LoadingError(ShortReadMessage)
  {
    var read :- ReadBytes(s, n);
    Ok((BigEndian(read.0), read.1))
  }

  /** How a size-prefixed payload is read. The loaders size their buffer with
      `BytesMut::with_capacity(size)`, which has capacity but length zero, so
      the exact read that follows reads nothing: `WithCapacity` models that.
      `DeclaredLength` reads the declared number of bytes, which is what the
      container layout describes; it is a corrected reading, not the code as
      written. */
  datatype PayloadRead = WithCapacity | DeclaredLength

  /** Reads a payload whose declared size is `size`, under the given reading. */
  function ReadPayload(s: Stream, size: nat, read: PayloadRead): (r: Result<(seq<byte>, Stream)>)
    ensures read == WithCapacity ==> r == Ok(([], s))
    ensures read == DeclaredLength ==> r == ReadBytes(s, size)
  {
    ReadBytes(s, if read == WithCapacity then 0 else size)
  }

  /** Reading an encoded little-endian value gives the value back. */
  lemma ReadLEAt(s: Stream, n: nat, v: nat)
    requires v < Pow256(n)
    requires At(s.data, s.pos, EncodeLittleEndian(v, n))
    ensures ReadLE(s, n) == Ok((v, Seek(s, s.pos + n)))
  {
  }

  /** Reading an encoded big-endian value gives the value back. */
  lemma ReadBEAt(s: Stream, n: nat, v: nat)
    requires v < Pow256(n)
    requires At(s.data, s.pos, EncodeBigEndian(v, n))
    ensures ReadBE(s, n) == Ok((v, Seek(s, s.pos + n)))
  {
  }

  /** Reading bytes that are known to be there gives them back. */
  lemma ReadBytesAt(s: Stream, x: seq<byte>)
    requires At(s.data, s.pos, x)
    ensures ReadBytes(s, |x|) == Ok((x, Seek(s, s.pos + |x|)))
  {
  }
}

=== FILE: wrappers.dfy ===
/** The single error kind of the loaders and the failure-compatible wrappers
    built on it. Every decoder reports a failure as `LoadingError(msg)`; the
    messages are informative only and no property depends on their text,
    except that a magic-number mismatch is told apart from a short read. */
module Wrappers {

  /** The one error the asset loaders produce. I/O failures (a short read)
      and malformed UTF-8 are folded into it as well. */
  datatype Error = LoadingError(msg: string)

  /** The outcome of a decoder: a value, or the error that stopped it.
      Usable with `:-`. */
  datatype Result<+T> = Ok(value: T) | Err(error: Error) {

    predicate IsFailure() {
      Err?
    }

    function PropagateFailure<U>(): Result<U>
      requires Err?
    {
      Err(error)
    }

    function Extract(): T
      requires Ok?
    {
      value
    }
  }

  /** The result of a lookup that may find nothing. */
  datatype Option<+T> = None | Some(value: T)

  /** The outcome of an operation that yields no value, only success or an error. */
  datatype Outcome = Pass | Fail(error: Error)
}
